=== FILE: README.md ===
# hu_wiwi_grades in Dafny

A model of the `hu_wiwi_grades` scraper. The scraper collects the grading
overviews of the Faculty of Economics and Business Administration of the
Humboldt-Universität zu Berlin. From each overview it reads the grade line out
of every linked PDF. It splits that line into an examiner, an exam round, a
participant count and eleven per-grade counts (1.0 to 5.0). Finally it expands
the counts into one row per examined student. The model covers the following
parts of `hu_wiwi_grades/hu_wiwi_grades.py`:

- **`Semesters`** reads a page's semester label. It takes the text of the
  page's first `h4` if that element's markup mentions "semester", else the
  text of the first `h3` under the same test, else a fallback label. Later
  headings are never looked at. It then shortens "Sommersemester" to "SoSe" and
  "Wintersemester" to "WiSe".
- **`Sources`** models `list_sources` and its link rules:
  - `resolveuid` links get the faculty base path in front;
  - `mailto` links and "AGNES" anchors are dropped;
  - the result is a Python dict, modelled as an insertion-ordered association
    list.
- **`Overview`** models two functions:
  - `scrape_overview`: row reading, newline cleanup, the length guard
    `len(exam) > 1` and the exam filter. When no data row was read, pandas
    gives the empty mask the object dtype and selects columns with it. That
    leaves no `exam` column, so a non-empty filter raises `KeyError`. The
    model reports this as `NoExamColumn`;
  - `scrape_all_overviews`: every listed overview scraped without a filter
    and concatenated, then filtered by exam once and length-guarded again.
- **`PdfExtract`** models `_extract_pdf` from the point where tabula has
  produced the table. That covers the host guard, the merge of the first row
  into one line, the separator tidying and the 14-column limit.
- **`GradeSplit`** models `_split_grades`. It cuts a grade line
  `"<round> <examiner>;<participants> <n1.0> ... <n5.0>"` into fields, turning
  a lone "-" into "0".
- **`Analysis`** models `prepare_for_analysis`. It cleans the exam name and
  expands every record into per-student rows carrying the grade, in tenths.
  A round glued to the title, as in "Title-01", is only widened to
  "Title- 01" and is not cut off (`Analysis.ExamNameGlued`).
- **`Pipeline`** models `_pull_grades` and `get_grading`, and proves how one
  grade line travels from the PDF row to the student rows.
- **`Text`** and **`Numerals`** give the Python string operations the source
  uses a precise meaning. These are `in`, `replace`, `split`, `join`, `strip`
  and `split(p)[0]`, plus digit strings.

The network, HTML parsing and PDF reading become parameters:
- `fetch: string -> Page` stands for download and parse;
- a `Page` is the few elements the scraper reads;
- `tableOf: string -> Option<seq<string>>` stands for the first table row
  that tabula reads.

Failures that the Python code raises as exceptions are `Result` failures with
a named reason.

## Model

| member | source | states |
|---|---|---|
| Semesters.HeadingLabel | hu_wiwi_grades/hu_wiwi_grades.py:22-27 | the label is the first `h4`'s text when its markup mentions "semester"; otherwise the first `h3`'s text when its markup does; otherwise the fallback |
| Semesters.Normalize | hu_wiwi_grades/hu_wiwi_grades.py:91 | the normalised label mentions neither "Sommersemester" nor "Wintersemester"; a label that mentions neither is returned unchanged |
| Semesters.NormalizeIdempotent | hu_wiwi_grades/hu_wiwi_grades.py:91 | normalising an already normalised label changes nothing |
| Semesters.NormalizeSummerTerm | hu_wiwi_grades/hu_wiwi_grades.py:91 | "Sommersemester" followed by a year part becomes "SoSe" followed by the same year part |
| Semesters.NormalizeWinterTerm | hu_wiwi_grades/hu_wiwi_grades.py:91 | "Wintersemester" followed by a year part becomes "WiSe" followed by the same year part |
| Semesters.SummerGone | hu_wiwi_grades/hu_wiwi_grades.py:91 | after replacing "Sommersemester" by "SoSe" no "Sommersemester" is left |
| Semesters.WinterGone | hu_wiwi_grades/hu_wiwi_grades.py:91 | after replacing "Wintersemester" by "WiSe" no "Wintersemester" is left |
| Semesters.SummerStaysGone | hu_wiwi_grades/hu_wiwi_grades.py:91 | the second replacement cannot bring back a "Sommersemester" the first one removed |
| Sources.NormalizeLinkFacts | hu_wiwi_grades/hu_wiwi_grades.py:33-34 | the rewritten link ends with the original; it differs from it exactly when the original mentions "resolveuid", and then it is the base path followed by the link; prefixing never changes whether "mailto" or "resolveuid" is mentioned |
| Sources.NormalizeLink | hu_wiwi_grades/hu_wiwi_grades.py:33-34 | the rewritten link ends with the original link, and equals it exactly when the original does not mention "resolveuid" |
| Sources.Update | hu_wiwi_grades/hu_wiwi_grades.py:39-40 | dict update: the key maps to the new value, every other key keeps its value, an existing key keeps its position, and a new key is appended at the end |
| Sources.LookupEntry | hu_wiwi_grades/hu_wiwi_grades.py:39-40 | with distinct keys every entry is what its key looks up |
| Sources.AddLinks | hu_wiwi_grades/hu_wiwi_grades.py:29-40 | the paragraph loop keeps keys distinct and keeps the keys already present, in their order |
| Sources.AddLinksLookup | hu_wiwi_grades/hu_wiwi_grades.py:29-40 | after the loop a key maps to the link of the last kept anchor with that text, or keeps its earlier value when no kept anchor has that text |
| Sources.LastLinkSource | hu_wiwi_grades/hu_wiwi_grades.py:29-40 | a link found for a key comes from a kept anchor on the page whose text is that key, rewritten by the resolveuid rule |
| Sources.ListSources | hu_wiwi_grades/hu_wiwi_grades.py:20-41 | the listing is never empty, its first key is the heading-derived semester label, and its keys are distinct |
| Sources.ListSourcesLookup | hu_wiwi_grades/hu_wiwi_grades.py:28-41 | looking up a key in the listing gives the last kept paragraph link with that text, else the page URL for the semester label, else nothing |
| Sources.ListSourcesEntries | hu_wiwi_grades/hu_wiwi_grades.py:28-41 | every entry is either the semester label with the page URL or the rewritten link of a kept anchor on the page; such a link does not mention "mailto" and its key does not mention "AGNES" |
| Overview.Where | hu_wiwi_grades/hu_wiwi_grades.py:99 | a boolean mask keeps no more rows than it is given, and every row it keeps passes the test |
| Overview.WhereSpec | hu_wiwi_grades/hu_wiwi_grades.py:99 | the mask keeps an order-preserving selection of its input, and every row that passes the test is kept as many times as it occurs |
| Overview.WhereConcat | hu_wiwi_grades/hu_wiwi_grades.py:128-133 | masking a concatenation is concatenating the masked parts |
| Overview.WhereAll | hu_wiwi_grades/hu_wiwi_grades.py:99 | a mask that every row passes keeps the table as it is |
| Overview.WhereIdempotent | hu_wiwi_grades/hu_wiwi_grades.py:133 | applying the same mask twice is applying it once |
| Overview.WhereCommute | hu_wiwi_grades/hu_wiwi_grades.py:130-133 | two masks may be applied in either order, so filtering by exam before or after the length guard gives the same rows |
| Overview.FilterExamSpec | hu_wiwi_grades/hu_wiwi_grades.py:100-101 | the exam filter keeps an order-preserving selection; an empty filter keeps every row; a non-empty one keeps exactly the rows whose exam name contains it, each as often as it occurs |
| Overview.FilterExam | hu_wiwi_grades/hu_wiwi_grades.py:100-101 | the filter keeps no more rows than it is given, keeps all of them when the filter is empty, and every row it keeps has an exam name containing the filter |
| Overview.FilterExamIdempotent | hu_wiwi_grades/hu_wiwi_grades.py:130-131 | filtering by the same exam twice changes nothing the second time |
| Overview.FilterExamConcat | hu_wiwi_grades/hu_wiwi_grades.py:128-131 | filtering the concatenated overviews is concatenating the filtered overviews |
| Overview.OneLine | hu_wiwi_grades/hu_wiwi_grades.py:98 | replacing newlines by spaces keeps the length, puts a space exactly where a newline was and keeps every other character, so no newline is left |
| Overview.CollapseNewlines | hu_wiwi_grades/hu_wiwi_grades.py:97-98 | exam, url, date and review details each have their newlines turned into spaces, character by character; the semester is untouched; no newline is left in the four columns |
| Text.ReplaceChar | hu_wiwi_grades/hu_wiwi_grades.py:98 | replacing one character by another keeps the length and changes exactly the positions that held that character |
| Overview.CollapseAll | hu_wiwi_grades/hu_wiwi_grades.py:97-98 | the newline cleanup is applied row by row and keeps the number of rows |
| Overview.Cleanup | hu_wiwi_grades/hu_wiwi_grades.py:97-99 | after cleanup the rows are an order-preserving selection of the newline-free rows; every row whose exam name is longer than one character is kept as often as it occurs; every kept row has such a name and no newline in its four text columns |
| Overview.CleanupSemester | hu_wiwi_grades/hu_wiwi_grades.py:97-99 | cleanup leaves the semester column alone |
| Overview.PageSemester | hu_wiwi_grades/hu_wiwi_grades.py:85-91 | the semester attached to a page's rows is always in normalised form |
| Overview.ReadRows | hu_wiwi_grades/hu_wiwi_grades.py:70-95 | reading fails exactly when a row that is neither empty nor bold-headed has fewer than three cells; otherwise record j is the j-th such data row read: its first three cells' texts as exam, date and review details, its link rewritten by the resolveuid rule (or "" without a link) as url, and the page semester |
| Overview.ReadRow | hu_wiwi_grades/hu_wiwi_grades.py:74-95 | an empty or bold-headed row is skipped; any other row fails with a missing cell exactly when it has fewer than three cells, and otherwise becomes the record of its first three cells, its rewritten link and the semester |
| Overview.ScrapeOverview | hu_wiwi_grades/hu_wiwi_grades.py:68-102 | a page scrapes exactly when its rows can be read and either the filter is empty or some data row was read (an empty table with a filter fails with a missing exam column); the rows are then an order-preserving selection of the records read with newlines collapsed, every long record mentioning the filter is kept as often as it occurs, and every row has a long single-line exam name containing the filter and the page's normalised semester |
| Overview.ScrapeOverviewUnfiltered | hu_wiwi_grades/hu_wiwi_grades.py:99-102 | without a filter the empty-table failure cannot happen: the scrape is the plain read, cleanup and length guard |
| Overview.ScrapeRows | hu_wiwi_grades/hu_wiwi_grades.py:92-102 | rows scrape exactly when they can be read; the result is an order-preserving selection of the records read with newlines collapsed, keeping every long record that mentions the filter as often as it occurs, and every row is long, single-line, mentions the filter and has the given semester |
| Overview.CleanedRows | hu_wiwi_grades/hu_wiwi_grades.py:97-101 | cleanup followed by the exam filter leaves rows with long names, no newlines, the input's semester and names containing the filter |
| Overview.CleanedRowsComplete | hu_wiwi_grades/hu_wiwi_grades.py:97-101 | cleanup followed by the filter selects in order from the newline-collapsed rows and loses none that is long and mentions the filter |
| Overview.SubsequenceTrans | hu_wiwi_grades/hu_wiwi_grades.py:99-101 | a selection from a selection of rows is a selection of the original rows |
| Overview.Urls | hu_wiwi_grades/hu_wiwi_grades.py:128 | the aggregator visits the listed URLs in listing order, one per entry |
| Overview.ScrapePage | hu_wiwi_grades/hu_wiwi_grades.py:129 | one listed page scrapes exactly when its rows can be read; then every row is long, single-line and mentions the filter, the rows are drawn in order from the page's records with newlines collapsed, and every long record mentioning the filter is kept as often as it occurs (`SelectsFrom`) |
| Overview.ScrapeEach | hu_wiwi_grades/hu_wiwi_grades.py:128-129 | the concatenated overviews exist exactly when every listed page can be read; a failure is always a missing cell; every row is long, single-line and mentions the filter |
| Overview.ScrapeEachSingle | hu_wiwi_grades/hu_wiwi_grades.py:128-129 | an empty listing gives no rows, and a one-page listing gives exactly that page's scraped rows |
| Overview.ScrapeEachCons | hu_wiwi_grades/hu_wiwi_grades.py:128-129 | a listing scrapes as its first page followed by the rest, failing when either fails |
| Overview.ScrapeEachAppend | hu_wiwi_grades/hu_wiwi_grades.py:128-129 | scraping two listings in sequence succeeds exactly when each does and gives the first's rows followed by the second's, so the result is the pages' rows concatenated in listing order |
| Overview.Refilter | hu_wiwi_grades/hu_wiwi_grades.py:130-133 | the exam filter, applied here for the only time, and the repeated length guard select in order from the concatenation, keep every long row mentioning the exam as often as it occurs, and leave only clean rows |
| Overview.RefilterClean | hu_wiwi_grades/hu_wiwi_grades.py:130-133 | after the filter and the guard every row of single-line input is long, single-line and mentions the exam |
| Overview.RefilterSelects | hu_wiwi_grades/hu_wiwi_grades.py:130-133 | the filter followed by the guard selects in order from its input and keeps every long row mentioning the exam as often as it occurs |
| Overview.ScrapeAllOverviews | hu_wiwi_grades/hu_wiwi_grades.py:126-135 | the aggregator succeeds exactly when every page in the listing of the default faculty page can be read; every row it returns has a long, single-line exam name containing the filter; the rows are drawn in order from the unfiltered concatenation of the listed pages, and every long row there that mentions the filter is kept as often as it occurs |
| Overview.ScrapeEachFilter | hu_wiwi_grades/hu_wiwi_grades.py:128-133 | scraping every page unfiltered and filtering once gives the same rows as filtering page by page, and succeeds on the same inputs |
| Overview.ScrapeAllOverviewsPerPage | hu_wiwi_grades/hu_wiwi_grades.py:126-135 | the aggregator's result equals scraping each listed page with the filter and concatenating the results |
| Overview.SubsequenceKeeps | hu_wiwi_grades/hu_wiwi_grades.py:99-101 | a property shared by every row of a table holds for every row a mask keeps |
| PdfExtract.ExtractPdf | hu_wiwi_grades/hu_wiwi_grades.py:140-162 | a URL without the faculty host gives no line; a line comes back exactly when the host is named, tabula gave a row, and the row plus the merged column fits in 14 columns |
| PdfExtract.MergeRow | hu_wiwi_grades/hu_wiwi_grades.py:154-155 | a one-cell row becomes the examiner cell followed by ";"; a longer row becomes the examiner cell, "; ", then the other cells joined by single spaces |
| PdfExtract.TidySeparators | hu_wiwi_grades/hu_wiwi_grades.py:156 | a line holding neither " / " nor "; " comes back unchanged |
| Pipeline.TidyShape | hu_wiwi_grades/hu_wiwi_grades.py:156 | on cells without ";" or "/", the tidying only closes the gap after the semicolon |
| Pipeline.ExtractGradeLine | hu_wiwi_grades/hu_wiwi_grades.py:154-162 | a first row made of "<round> <examiner>" and twelve count tokens comes out as exactly the grade line the splitter expects |
| Pipeline.PullGrades | hu_wiwi_grades/hu_wiwi_grades.py:168-178 | one output row per overview row, in order, with the row unchanged and, next to it, exactly what extraction gives for its own URL; a row has a grade line exactly when its URL names the host and tabula produced a row of acceptable width |
| Pipeline.PulledLines | hu_wiwi_grades/hu_wiwi_grades.py:174 | some pulled row has a grade line exactly when some overview row's PDF gives one, and pulled row i splits as overview row i's grading |
| Pipeline.GradeRows | hu_wiwi_grades/hu_wiwi_grades.py:231-232 | pulling and splitting succeeds exactly when the overview exists, some row's PDF gives a grade line and every row's line splits; record i is then exactly the split of overview row i with its own PDF line, keeping the row and having eleven counts |
| Pipeline.GradingOverview | hu_wiwi_grades/hu_wiwi_grades.py:227-230 | whichever overview `get_grading` starts from, every row has a long, single-line exam name containing the filter |
| Pipeline.GradedMentions | hu_wiwi_grades/hu_wiwi_grades.py:227-232 | split records keep their overview rows, so each has eleven counts and an exam name containing the filter |
| Pipeline.SplitPulled | hu_wiwi_grades/hu_wiwi_grades.py:231-232 | the pulled table splits exactly when some row has a grade line and every row splits, and then record i is the split of row i |
| Pipeline.GetGrading | hu_wiwi_grades/hu_wiwi_grades.py:227-233 | a result exists exactly when the overview was scraped, some row's PDF gives a grade line and every row's line splits; record i is then overview row i split with its own PDF line, with eleven counts and an exam name containing the filter |
| Pipeline.PullThenSplit | hu_wiwi_grades/hu_wiwi_grades.py:154-187 | a well-formed PDF row survives extraction and splits back into its round, examiner, participant count and the eleven counts with dashes as "0" |
| Pipeline.LineRecord | hu_wiwi_grades/hu_wiwi_grades.py:182-187 | splitting a one-row table whose line is well formed gives one record with that row's round, examiner and counts |
| Pipeline.RecordCounts | hu_wiwi_grades/hu_wiwi_grades.py:259-261 | a record whose counts are digit strings or dashes can be expanded, and each count reads as its number, with a dash read as zero |
| Pipeline.SplitThenExpand | hu_wiwi_grades/hu_wiwi_grades.py:182-269 | from a well-formed grade line, the number of student rows with a given grade is the count written for that grade in the line |
| GradeSplit.CountFields | hu_wiwi_grades/hu_wiwi_grades.py:186-187 | the eleven bucket counts are the tokens after the participant count, with a lone dash read as "0" |
| GradeSplit.DashToZero | hu_wiwi_grades/hu_wiwi_grades.py:187 | a lone "-" becomes a digit string worth zero; any other field is kept as it is |
| GradeSplit.SplitGrades | hu_wiwi_grades/hu_wiwi_grades.py:183-187 | a line splits exactly when, once stripped, it has one ";", a space before it and twelve fields after it; then it yields eleven counts and a round without spaces |
| GradeSplit.SplitStripped | hu_wiwi_grades/hu_wiwi_grades.py:184-187 | the same condition and shape for a line that is already stripped; on success `str.split(";")` gives two parts and the round, a space and the examiner rebuild the first |
| GradeSplit.SemicolonHalves | hu_wiwi_grades/hu_wiwi_grades.py:184 | splitting at ";" gives two parts exactly when there is one ";", and then they are the texts before and after it; so the cut at the first ";" agrees with `str.split(";")` |
| GradeSplit.WellShapedAt | hu_wiwi_grades/hu_wiwi_grades.py:184-187 | with the first ";" at a known position, the shape condition reads as one ";", a space before it and eleven spaces after it |
| GradeSplit.SplitHalves | hu_wiwi_grades/hu_wiwi_grades.py:185-187 | the two halves split exactly when the first has a space and the second has eleven; the round and examiner rebuild the first half |
| GradeSplit.SplitGradesRebuilds | hu_wiwi_grades/hu_wiwi_grades.py:183-187 | whatever the splitter accepts is, once stripped, a grade line rebuilt from its fields and twelve tokens |
| GradeSplit.SplitStrippedRebuilds | hu_wiwi_grades/hu_wiwi_grades.py:184-187 | an accepted stripped line is the grade line rebuilt from its fields |
| GradeSplit.SplitHalvesRebuilds | hu_wiwi_grades/hu_wiwi_grades.py:185-187 | accepted halves joined by ";" are the grade line rebuilt from the fields |
| GradeSplit.SplitGradesOfLine | hu_wiwi_grades/hu_wiwi_grades.py:183-187 | a grade line with any surrounding whitespace splits back into exactly the round, examiner, participants and counts it was built from |
| GradeSplit.SplitGradeLine | hu_wiwi_grades/hu_wiwi_grades.py:184-187 | a grade line splits back into the fields it was built from |
| GradeSplit.SplitStrippedOfLine | hu_wiwi_grades/hu_wiwi_grades.py:184 | the semicolon cut of a grade line separates "<round> <examiner>" from the joined tokens |
| GradeSplit.SplitHalvesOfLine | hu_wiwi_grades/hu_wiwi_grades.py:185-187 | the space cut and the token split give back the round, the examiner and the twelve tokens |
| GradeSplit.SplitRow | hu_wiwi_grades/hu_wiwi_grades.py:182-187 | a row without a grade line keeps empty fields and unreadable counts; one with a line succeeds exactly when the line splits, keeping the overview row and eleven counts |
| GradeSplit.SplitRows | hu_wiwi_grades/hu_wiwi_grades.py:182-187 | the table splits exactly when every row does, and then record i is row i's split |
| GradeSplit.SplitRowsSingle | hu_wiwi_grades/hu_wiwi_grades.py:182-187 | a one-row table splits as its row does |
| GradeSplit.SplitTable | hu_wiwi_grades/hu_wiwi_grades.py:182-187 | the table splits exactly when some row has a grade line and every row splits; a table without any grade line fails; record i is then exactly row i's split, keeping its row and with eleven counts |
| GradeSplit.SplitTableSingle | hu_wiwi_grades/hu_wiwi_grades.py:182-187 | a one-row table with a well-formed line becomes the record built from that line's fields |
| GradeSplit.JoinEndsWith | hu_wiwi_grades/hu_wiwi_grades.py:155 | a joined row ends with its last cell |
| Analysis.GradesIncrease | hu_wiwi_grades/hu_wiwi_grades.py:259 | the grade buckets are listed in strictly increasing order |
| Analysis.ExamName | hu_wiwi_grades/hu_wiwi_grades.py:262-263 | the cleaned exam name never contains " - 0" and neither starts nor ends with whitespace |
| Analysis.ExamNameOfLabel | hu_wiwi_grades/hu_wiwi_grades.py:262-263 | for a label "<title> - 0<rest>" whose parts use no "-" or "/", the cleaned name is the title |
| Analysis.WidenLabel | hu_wiwi_grades/hu_wiwi_grades.py:262 | the first replacement widens the round separator to "  - 0" |
| Analysis.KeepSpacedLabel | hu_wiwi_grades/hu_wiwi_grades.py:262 | the second and third replacements leave the widened label unchanged |
| Analysis.CutLabel | hu_wiwi_grades/hu_wiwi_grades.py:263 | cutting the widened label before " - 0" and stripping leaves the title |
| Analysis.ExamNameGlued | hu_wiwi_grades/hu_wiwi_grades.py:262-263 | a label with the round glued to the title, "<title>-0<rest>", is not cut: its cleaned name is "<title>- 0<rest>" |
| Analysis.GluedWiden | hu_wiwi_grades/hu_wiwi_grades.py:262 | on a glued label the first replacement finds nothing and the second opens the one "-0" to "- 0" |
| Analysis.GluedKeepsWhole | hu_wiwi_grades/hu_wiwi_grades.py:263 | with no space before its one "-", the widened glued label holds no " - 0" and the cut keeps all of it |
| Analysis.CountValue | hu_wiwi_grades/hu_wiwi_grades.py:260-261 | a missing cell counts as zero students, a NaN cell is not a count, and text is a count exactly when it is a non-empty digit string |
| Analysis.ParseCounts | hu_wiwi_grades/hu_wiwi_grades.py:259-261 | the counts read exactly when every cell reads, and then count k is cell k's value |
| Analysis.ParseCountsFailsAt | hu_wiwi_grades/hu_wiwi_grades.py:261 | one cell that is not a count makes the whole record fail |
| Analysis.Template | hu_wiwi_grades/hu_wiwi_grades.py:262-267 | every student row carries the cleaned exam name, the stripped semester, the round as given and the stripped examiner; its exam name holds no " - 0"; exam, semester and examiner carry no surrounding whitespace |
| Analysis.Replicate | hu_wiwi_grades/hu_wiwi_grades.py:261 | the inner loop adds n copies of the same row |
| Analysis.ReplicateCount | hu_wiwi_grades/hu_wiwi_grades.py:261 | n copies of a row contain that row n times and no other row |
| Analysis.Students | hu_wiwi_grades/hu_wiwi_grades.py:259-269 | a record yields as many student rows as its counts add up to, each equal to the template except for a grade taken from the buckets read |
| Analysis.StudentsCount | hu_wiwi_grades/hu_wiwi_grades.py:259-261 | the number of student rows with bucket k's grade is exactly bucket k's count |
| Analysis.StudentsBelow | hu_wiwi_grades/hu_wiwi_grades.py:259 | rows from the first k buckets all have grades below bucket k's grade |
| Analysis.StudentsSorted | hu_wiwi_grades/hu_wiwi_grades.py:259 | a record's student rows come out in ascending grade order |
| Analysis.StudentsExtend | hu_wiwi_grades/hu_wiwi_grades.py:259-269 | one more bucket appends that many copies of the row with that bucket's grade |
| Analysis.ExpandRecordWith | hu_wiwi_grades/hu_wiwi_grades.py:258-269 | a record expands exactly when it has the eleven bucket cells and each reads as a count |
| Analysis.ExpandRecordRows | hu_wiwi_grades/hu_wiwi_grades.py:258-269 | an expandable record yields the template's students for the counts read from its eleven cells |
| Analysis.ExpandAllWith | hu_wiwi_grades/hu_wiwi_grades.py:258-269 | the table expands exactly when every record does |
| Analysis.ExpandTable | hu_wiwi_grades/hu_wiwi_grades.py:257-271 | `prepare_for_analysis` succeeds exactly when every record has eleven readable counts |
| Analysis.ExpandAllFailsAt | hu_wiwi_grades/hu_wiwi_grades.py:258-261 | the first record that cannot be expanded decides the error of the whole table |
| Analysis.ExpandAllLast | hu_wiwi_grades/hu_wiwi_grades.py:258-269 | a table's rows are the rows of all records but the last followed by the last record's rows |
| Analysis.ExpandAllSingle | hu_wiwi_grades/hu_wiwi_grades.py:258-269 | a one-record table expands as its record does |
| Analysis.ExpandRecordContents | hu_wiwi_grades/hu_wiwi_grades.py:259-269 | one record gives as many rows as its counts add up to; every row has a table grade and the record's shared fields; the rows are sorted by grade; exactly count k of them carry grade k |
| Analysis.PreparedRecord | hu_wiwi_grades/hu_wiwi_grades.py:258-270 | the same facts for `prepare_for_analysis` itself, with the cleaned exam name, stripped semester and examiner, and the round as given |
| Analysis.ExpandAllAppend | hu_wiwi_grades/hu_wiwi_grades.py:258-270 | expanding two tables one after the other gives the rows of the first table followed by those of the second |
| Analysis.ExpandAllParts | hu_wiwi_grades/hu_wiwi_grades.py:258-269 | if a concatenated table expands, both of its parts do |
| Analysis.ExpandAllStep | hu_wiwi_grades/hu_wiwi_grades.py:258-269 | a table that expands yields the rows of all but its last record followed by the last record's rows |
| Analysis.ExpandAllSnoc | hu_wiwi_grades/hu_wiwi_grades.py:258-269 | a table with one more record expands exactly when the table and that record do, giving the table's rows followed by the record's |
| Analysis.ExpandTableAppend | hu_wiwi_grades/hu_wiwi_grades.py:257-270 | `prepare_for_analysis` of two concatenated tables is the concatenation of the two results |
| Analysis.PrepareForAnalysis | hu_wiwi_grades/hu_wiwi_grades.py:257-271 | the loop version succeeds exactly when every record can be expanded, and it agrees with the functional one |
| Analysis.PrepareWith | hu_wiwi_grades/hu_wiwi_grades.py:258-269 | the row-by-row loop builds exactly the expansion of the table |
| Analysis.ExpandCells | hu_wiwi_grades/hu_wiwi_grades.py:259-269 | the loop over one record builds exactly that record's expansion |
| Analysis.ExpandCounts | hu_wiwi_grades/hu_wiwi_grades.py:259-269 | the bucket loop succeeds exactly when every cell is a count; it then builds the record's students in bucket order; otherwise it reports a cell that is not a count |
| Analysis.AppendCopies | hu_wiwi_grades/hu_wiwi_grades.py:261-269 | the innermost loop appends exactly n copies of the row |
| Numerals.ParseNat | hu_wiwi_grades/hu_wiwi_grades.py:261 | a number is read exactly from a non-empty digit string |
| Numerals.ShowNat | hu_wiwi_grades/hu_wiwi_grades.py:261 | every count prints as a non-empty digit string |
| Numerals.ParseShow | hu_wiwi_grades/hu_wiwi_grades.py:261 | reading a printed count gives the count back |
| Text.ReplaceAll | hu_wiwi_grades/hu_wiwi_grades.py:91 | replacing by a text of equal length keeps the length |
| Text.ReplaceAbsent | hu_wiwi_grades/hu_wiwi_grades.py:91 | replacing a text that does not occur changes nothing |
| Text.ReplaceLeftmost | hu_wiwi_grades/hu_wiwi_grades.py:91 | the leftmost occurrence is replaced and scanning resumes after it |
| Text.ReplaceExcludes | hu_wiwi_grades/hu_wiwi_grades.py:91 | a replacement that cannot overlap any occurrence of a text leaves no occurrence of it, whether that text is the replaced pattern or was absent before |
| Text.Split | hu_wiwi_grades/hu_wiwi_grades.py:184 | splitting on a character gives one more piece than there are separators, and no piece contains the separator |
| Text.JoinSplit | hu_wiwi_grades/hu_wiwi_grades.py:184-187 | joining the pieces of a split with the separator gives back the string |
| Text.SplitJoin | hu_wiwi_grades/hu_wiwi_grades.py:184-187 | splitting a join of separator-free pieces gives back the pieces |
| Text.Strip | hu_wiwi_grades/hu_wiwi_grades.py:183 | stripping never lengthens a string, and the result neither starts nor ends with whitespace |
| Text.StripSlice | hu_wiwi_grades/hu_wiwi_grades.py:183 | what strip keeps is one contiguous slice of the input |
| Text.StripRemovesSpace | hu_wiwi_grades/hu_wiwi_grades.py:183 | everything strip removes around that slice is whitespace |
| Text.StripIdempotent | hu_wiwi_grades/hu_wiwi_grades.py:183 | stripping twice is stripping once |
| Text.StripContains | hu_wiwi_grades/hu_wiwi_grades.py:263 | a stripped string contains nothing the original did not |
| Text.Before | hu_wiwi_grades/hu_wiwi_grades.py:263 | `split(p)[0]` is a prefix of the input with no occurrence of p, and it ends where the first p starts, or at the end of the input |
| Text.BeforeFirst | hu_wiwi_grades/hu_wiwi_grades.py:263 | when the first occurrence of p starts at j, `split(p)[0]` is the text before j |
| Text.BeforeExcludes | hu_wiwi_grades/hu_wiwi_grades.py:263 | the text before the first occurrence of p does not contain p |

## Left out

- Fetching pages (`requests.get`) and parsing HTML (BeautifulSoup) are not modelled; they are the `fetch` parameter. A `Page` holds the first `h4` and `h3`, the first link of each paragraph and the cells of every table-body row, in document order.
- Reading the PDF with tabula (lines 145-153) is not modelled; it is the `firstRow`/`tableOf` parameter. That covers the index repair and the renaming of the first column. It also covers dropping every row whose examiner cell is missing (line 151) and then every column with a missing cell in any remaining row (line 152). Any exception in that block (line 163) becomes `None`.
- The `print` calls and the failure count of `_pull_grades` (lines 170-177) are console output only and are left out.
- `reset_index` (lines 134, 153, 270) only renumbers rows; sequences have no index to renumber.
- The `url` argument of `scrape_all_overviews` is ignored by the original, which always lists the default faculty page; the model does the same.
- The test `y.find("td") == 0` at line 72 is never true, because `find` returns an element or `None`, so it has no counterpart.
- A missing `href` attribute raises `KeyError` in the original; links are modelled as present or absent (`Option`), and an anchor always has an `href`.
- A data row with fewer than three cells raises `IndexError` in the original; the model returns `Failure(MissingCell)` for the whole scrape.
- Analysis.CountValue: only non-empty ASCII digit strings count. `int(float(x))` also accepts surrounding whitespace, a sign, a decimal point and exponents ("3.0", "1e1"), and a negative count gives an empty range. The model rejects such cells instead of reading them.
- Numerals.ParseNat: reads decimal digit strings only, for the same reason as `Analysis.CountValue`.
- GradeSplit.SplitRows: a malformed line (a second ";", no space before ";", other than twelve count fields) makes pandas either raise or pad and misalign columns with `None`. The model makes the whole split fail with a `SplitError` instead of modelling the misaligned frame.
- GradeSplit.SplitRow: the text fields of a row without a grade line are `NaN` in the original; they are `""` here and the counts are `NotANumber`. Expanding such a row fails in both.
- The exam filter `str.contains(exam)` is a regular-expression search in pandas; the model reads it as a literal substring test, which agrees for filters without regex metacharacters.
- The `dropna(how='all', axis=1)` at line 182 only removes columns that are empty in every row; the only such column that matters is the grade column of a table without any grade line, which is `NoGradeLines`.
- Grades are in tenths (10 for 1.0 ... 50 for 5.0) rather than floats, so equal grades compare exactly.
- The participant count is carried as text and not used by the expansion, as in the original.
- `setup.py` is packaging metadata and is not modelled.

=== FILE: analysis.dfy ===
/** `prepare_for_analysis` (`hu_wiwi_grades.py` lines 237-270): every split
    grading record becomes one row per examined student, carrying the
    student's grade. */
module Analysis {
  import opened Wrappers
  import opened Text
  import opened Numerals
  import opened GradeSplit

  /** The grade buckets of the table in tenths, in column order:
      1.0, 1.3, 1.7, 2.0, 2.3, 2.7, 3.0, 3.3, 3.7, 4.0 and 5.0. */
  const Grades: seq<nat> := [10, 13, 17, 20, 23, 27, 30, 33, 37, 40, 50]

  /** The buckets strictly increase, so each grade names one bucket. */
  lemma GradesIncrease()
    ensures forall i, j :: 0 <= i < j < |Grades| ==> Grades[i] < Grades[j]
  {
  }

  /** One examined student. */
  datatype StudentGrade = StudentGrade(exam: string, semester: string, round: string, examiner: string, grade: nat)

  /** Why a table cannot be expanded: a record lacks the eleven bucket columns
      (the original raises `KeyError`), or a bucket holds `NaN` or text that is
      not a count (the original's `int(float(...))` raises). */
  datatype AnalysisError = MissingColumns | NotACount

  // ---------------------------------------------------------------------------
  // Exam names
  // ---------------------------------------------------------------------------

  /** The exam name without its round suffix: "- 0" is widened to " - 0",
      "-0" to "- 0", " / " narrowed to "/ ", the text is cut before the first
      " - 0", and the rest is stripped. The result never holds " - 0" and
      neither starts nor ends with whitespace. */
  function ExamName(exam: string): (r: string)
    ensures !Contains(r, " - 0")
    ensures Trimmed(r)
  {
    var widened := ReplaceAll(ReplaceAll(exam, "- 0", " - 0"), "-0", "- 0");
    var spaced := ReplaceAll(widened, " / ", "/ ");
    var head := Before(spaced, " - 0");
    BeforeExcludes(spaced, " - 0");
    StripContains(head, " - 0");
    Strip(head)
  }

  /** A label "<title> - 0<rest>" names the exam `title`, as long as neither
      part uses "-" or "/" and the title neither starts nor ends with
      whitespace. */
  lemma ExamNameOfLabel(title: string, rest: string)
    requires |title| > 0 && !IsSpace(title[0]) && !IsSpace(title[|title| - 1])
    requires '-' !in title && '/' !in title && '-' !in rest && '/' !in rest
    ensures ExamName(title + " - 0" + rest) == title
  {
    WidenLabel(title, rest);
    KeepSpacedLabel(title, rest);
    CutLabel(title, rest);
  }

  lemma WidenLabel(title: string, rest: string)
    requires '-' !in title && '-' !in rest
    ensures ReplaceAll(title + " - 0" + rest, "- 0", " - 0") == title + "  - 0" + rest
  {
    var front := title + " ";
    assert title + " - 0" + rest == front + "- 0" + rest;
    forall i | 0 <= i < |front|
      ensures !("- 0" <= (front + "- 0" + rest)[i..])
    {
      assert (front + "- 0" + rest)[i] != '-';
    }
    ReplaceLeftmost(front, rest, "- 0", " - 0");
    MissingCharExcludes(rest, "- 0", 0);
    ReplaceAbsent(rest, "- 0", " - 0");
    assert front + " - 0" + rest == title + "  - 0" + rest;
  }

  lemma KeepSpacedLabel(title: string, rest: string)
    requires '-' !in title && '/' !in title && '-' !in rest && '/' !in rest
    ensures var widened := title + "  - 0" + rest;
      ReplaceAll(ReplaceAll(widened, "-0", "- 0"), " / ", "/ ") == widened
  {
    var widened := title + "  - 0" + rest;
    var dash := |title| + 2;
    assert widened[dash] == '-' && widened[dash + 1] == ' ';
    forall i | 0 <= i <= |widened|
      ensures !("-0" <= widened[i..])
    {
      if i != dash && i < |widened| {
        assert widened[i] != '-';
      }
    }
    ContainsIff(widened, "-0");
    ReplaceAbsent(widened, "-0", "- 0");
    assert '/' !in widened;
    MissingCharExcludes(widened, " / ", 1);
    ReplaceAbsent(widened, " / ", "/ ");
  }

  /** No " - 0" starts inside a title without '-' or at the first of the two
      spaces after it. */
  lemma NoMarkerInTitle(title: string, rest: string)
    requires '-' !in title
    ensures var widened := title + "  - 0" + rest;
      forall i :: 0 <= i < |title| + 1 ==> !(" - 0" <= widened[i..])
  {
    var widened := title + "  - 0" + rest;
    forall i | 0 <= i < |title| + 1
      ensures !(" - 0" <= widened[i..])
    {
      assert widened[i + 1] != '-';
    }
  }

  lemma CutLabel(title: string, rest: string)
    requires |title| > 0 && !IsSpace(title[0]) && !IsSpace(title[|title| - 1])
    requires '-' !in title
    ensures Strip(Before(title + "  - 0" + rest, " - 0")) == title
  {
    var widened := title + "  - 0" + rest;
    NoMarkerInTitle(title, rest);
    assert " - 0" <= widened[|title| + 1..];
    BeforeFirst(widened, " - 0", |title| + 1);
    assert widened[..|title| + 1] == "" + title + " ";
    assert AllSpace(" ") && AllSpace("");
    StripFramed("", title, " ");
  }

  /** A round suffix glued to the title, "<title>-0<rest>", is only widened
      to "<title>- 0<rest>": no " - 0" arises, so nothing is cut off and the
      label stays whole. */
  lemma ExamNameGlued(title: string, rest: string)
    requires |title| > 0 && !IsSpace(title[0]) && !IsSpace(title[|title| - 1])
    requires '-' !in title && '/' !in title && '-' !in rest && '/' !in rest
    requires |rest| == 0 || !IsSpace(rest[|rest| - 1])
    ensures ExamName(title + "-0" + rest) == title + "- 0" + rest
  {
    GluedWiden(title, rest);
    var widened := title + "- 0" + rest;
    assert '/' !in widened;
    MissingCharExcludes(widened, " / ", 1);
    ReplaceAbsent(widened, " / ", "/ ");
    GluedKeepsWhole(title, rest);
    assert "" + widened + "" == widened;
    assert AllSpace("");
    StripFramed("", widened, "");
  }

  /** The first replacement finds nothing in a glued label; the second opens
      the one "-0". */
  lemma GluedWiden(title: string, rest: string)
    requires '-' !in title && '-' !in rest
    ensures ReplaceAll(ReplaceAll(title + "-0" + rest, "- 0", " - 0"), "-0", "- 0") == title + "- 0" + rest
  {
    var glued := title + "-0" + rest;
    GluedHasNoSpacedDash(title, rest);
    ReplaceAbsent(glued, "- 0", " - 0");
    forall i | 0 <= i < |title|
      ensures !("-0" <= glued[i..])
    {
      assert glued[i] == title[i];
    }
    ReplaceLeftmost(title, rest, "-0", "- 0");
    MissingCharExcludes(rest, "-0", 0);
    ReplaceAbsent(rest, "-0", "- 0");
  }

  lemma GluedHasNoSpacedDash(title: string, rest: string)
    requires '-' !in title && '-' !in rest
    ensures !Contains(title + "-0" + rest, "- 0")
  {
    var glued := title + "-0" + rest;
    forall i | 0 <= i <= |glued|
      ensures !("- 0" <= glued[i..])
    {
      if i < |glued| && i != |title| {
        assert glued[i] != '-';
      } else if i == |title| {
        assert glued[i + 1] == '0';
      }
    }
    ContainsIff(glued, "- 0");
  }

  /** With no space before its one '-', the widened label holds no " - 0",
      so the cut keeps all of it. */
  lemma GluedKeepsWhole(title: string, rest: string)
    requires |title| > 0 && !IsSpace(title[|title| - 1])
    requires '-' !in title && '-' !in rest
    ensures Before(title + "- 0" + rest, " - 0") == title + "- 0" + rest
  {
    var widened := title + "- 0" + rest;
    forall i | 0 <= i <= |widened|
      ensures !(" - 0" <= widened[i..])
    {
      if i + 1 < |widened| && i + 1 != |title| {
        assert widened[i + 1] != '-';
      } else if i + 1 == |title| {
        assert widened[i] == title[|title| - 1];
      }
    }
    var head := Before(widened, " - 0");
    assert |head| == |widened|;
  }

  // ---------------------------------------------------------------------------
  // Counts
  // ---------------------------------------------------------------------------

  /** The number of students a bucket cell stands for: a missing cell is
      skipped, as zero; `NaN` is not a count; text is a count when it is a
      digit string. */
  function CountValue(c: Count): (r: Option<nat>)
    ensures c.Missing? ==> r == Some(0)
    ensures c.NotANumber? ==> r == None
    ensures c.Text? ==> (r.Some? <==> |c.text| > 0 && AllDigits(c.text))
  {
    match c
    case Missing => Some(0)
    case NotANumber => None
    case Text(t) => ParseNat(t)
  }

  /** Every cell read as a count; fails when any cell is not one. */
  function ParseCounts(cs: seq<Count>): (r: Result<seq<nat>, AnalysisError>)
    ensures r.Success? <==> forall k :: 0 <= k < |cs| ==> CountValue(cs[k]).Some?
    ensures r.Success? ==> |r.value| == |cs| && forall k :: 0 <= k < |cs| ==> Some(r.value[k]) == CountValue(cs[k])
    decreases |cs|
  {
    if |cs| == 0 then Success([])
    else
      var front := ParseCounts(cs[..|cs| - 1]);
      var last := CountValue(cs[|cs| - 1]);
      if front.Failure? || last.None? then Failure(NotACount)
      else Success(front.value + [last.value])
  }

  function Sum(ns: seq<nat>): nat
  {
    if |ns| == 0 then 0 else Sum(ns[..|ns| - 1]) + ns[|ns| - 1]
  }

  // ---------------------------------------------------------------------------
  // Expansion
  // ---------------------------------------------------------------------------

  /** What every student row of record `r` shares: the exam name, the
      stripped semester, the round as is and the stripped examiner. The grade
      is filled in per bucket. */
  function Template(r: GradingRecord): (t: StudentGrade)
    ensures t.exam == ExamName(r.overview.exam)
    ensures t.semester == Strip(r.overview.semester) && t.examiner == Strip(r.examiner)
    ensures t.round == r.round && t.grade == 0
    ensures !Contains(t.exam, " - 0")
    ensures Trimmed(t.exam) && Trimmed(t.semester) && Trimmed(t.examiner)
  {
    StudentGrade(ExamName(r.overview.exam), Strip(r.overview.semester), r.round, Strip(r.examiner), 0)
  }

  function Replicate<T>(x: T, n: nat): (s: seq<T>)
    ensures |s| == n && forall i :: 0 <= i < n ==> s[i] == x
  {
    if n == 0 then [] else Replicate(x, n - 1) + [x]
  }

  lemma ReplicateCount<T>(x: T, y: T, n: nat)
    ensures multiset(Replicate(x, n))[y] == if x == y then n else 0
  {
  }

  /** The student rows for the first `|ns|` buckets, bucket by bucket:
      `ns[k]` copies of the template `t` with grade `Grades[k]`. There are
      `Sum(ns)` of them and every one is `t` with one of those buckets'
      grades. */
  function Students(t: StudentGrade, ns: seq<nat>): (s: seq<StudentGrade>)
    requires |ns| <= |Grades|
    ensures |s| == Sum(ns)
    ensures forall i :: 0 <= i < |s| ==> s[i] == t.(grade := s[i].grade) && s[i].grade in Grades[..|ns|]
    decreases |ns|
  {
    if |ns| == 0 then []
    else
      var n := |ns| - 1;
      var front := Students(t, ns[..n]);
      var back := Replicate(t.(grade := Grades[n]), ns[n]);
      assert Grades[..n] <= Grades[..|ns|];
      front + back
  }

  /** Exactly `ns[k]` of the students have the k-th grade. */
  lemma {:induction false} StudentsCount(t: StudentGrade, ns: seq<nat>, k: nat)
    requires |ns| <= |Grades| && k < |ns|
    ensures multiset(Students(t, ns))[t.(grade := Grades[k])] == ns[k]
    decreases |ns|
  {
    var n := |ns| - 1;
    var front := Students(t, ns[..n]);
    var x := t.(grade := Grades[k]);
    ReplicateCount(t.(grade := Grades[n]), x, ns[n]);
    GradesIncrease();
    if k == n {
      StudentsBelow(t, ns[..n]);
      forall i | 0 <= i < |front|
        ensures front[i] != x
      {
        assert front[i].grade < Grades[n];
      }
      assert x !in front;
    } else {
      StudentsCount(t, ns[..n], k);
      assert ns[..n][k] == ns[k];
    }
  }

  /** Every student's grade comes before bucket `|ns|`. */
  lemma StudentsBelow(t: StudentGrade, ns: seq<nat>)
    requires |ns| < |Grades|
    ensures forall i :: 0 <= i < |Students(t, ns)| ==> Students(t, ns)[i].grade < Grades[|ns|]
  {
    GradesIncrease();
  }

  /** Grades never decrease along the students of a record. */
  lemma {:induction false} StudentsSorted(t: StudentGrade, ns: seq<nat>)
    requires |ns| <= |Grades|
    ensures forall i, j :: 0 <= i < j < |Students(t, ns)| ==> Students(t, ns)[i].grade <= Students(t, ns)[j].grade
    decreases |ns|
  {
    if |ns| > 0 {
      var n := |ns| - 1;
      StudentsSorted(t, ns[..n]);
      StudentsBelow(t, ns[..n]);
    }
  }

  /** A record can be expanded when it has the eleven bucket cells and each
      is missing or a count. */
  predicate Expandable(r: GradingRecord)
  {
    |r.counts| == |Grades| && forall k :: 0 <= k < |r.counts| ==> CountValue(r.counts[k]).Some?
  }

  /** The students of one record, or the reason it has none, with the
      shared fields of its rows given by `template`. */
  function ExpandRecordWith(r: GradingRecord, template: GradingRecord -> StudentGrade): (s: Result<seq<StudentGrade>, AnalysisError>)
    ensures s.Success? <==> Expandable(r)
  {
    if |r.counts| != |Grades| then Failure(MissingColumns)
    else
      match ParseCounts(r.counts)
      case Failure(e) => Failure(e)
      case Success(ns) => Success(Students(template(r), ns))
  }

  /** All records expanded in table order; fails when any record fails. */
  function ExpandAllWith(table: seq<GradingRecord>, template: GradingRecord -> StudentGrade): (s: Result<seq<StudentGrade>, AnalysisError>)
    ensures s.Success? <==> forall i :: 0 <= i < |table| ==> Expandable(table[i])
    decreases |table|
  {
    if |table| == 0 then Success([])
    else
      var front := ExpandAllWith(table[..|table| - 1], template);
      var last := ExpandRecordWith(table[|table| - 1], template);
      assert forall i :: 0 <= i < |table| - 1 ==> table[..|table| - 1][i] == table[i];
      if front.Failure? then front
      else if last.Failure? then last
      else Success(front.value + last.value)
  }

  /** `prepare_for_analysis` as a function: one record's students after
      another, or failure when some record cannot be expanded. */
  function ExpandTable(table: seq<GradingRecord>): (s: Result<seq<StudentGrade>, AnalysisError>)
    ensures s.Success? <==> forall i :: 0 <= i < |table| ==> Expandable(table[i])
  {
    ExpandAllWith(table, Template)
  }

  /** Once the records before `i` expand and record `i` does not, the table
      fails with record `i`'s error. */
  lemma {:induction false} ExpandAllFailsAt(table: seq<GradingRecord>, template: GradingRecord -> StudentGrade, i: nat)
    requires i < |table|
    requires ExpandAllWith(table[..i], template).Success?
    requires ExpandRecordWith(table[i], template).Failure?
    ensures ExpandAllWith(table, template) == ExpandRecordWith(table[i], template)
    decreases |table|
  {
    var n := |table| - 1;
    ExpandAllLast(table, template);
    if i < n {
      assert table[..n][..i] == table[..i];
      assert table[..n][i] == table[i];
      ExpandAllFailsAt(table[..n], template, i);
    } else {
      assert table[..n] == table[..i];
    }
  }

  /** A non-empty table fails with its front's error, else with its last
      record's, else expands to both parts' rows. */
  lemma ExpandAllLast(t: seq<GradingRecord>, template: GradingRecord -> StudentGrade)
    requires |t| > 0
    ensures var front := ExpandAllWith(t[..|t| - 1], template);
      var last := ExpandRecordWith(t[|t| - 1], template);
      ExpandAllWith(t, template)
        == if front.Failure? then front else if last.Failure? then last else Success(front.value + last.value)
  {
  }

  /** `prepare_for_analysis`: for every record, for every bucket in column
      order, one row per counted student. A missing cell adds no rows; a
      record without the bucket columns or with a cell that is not a count
      makes the whole preparation fail. */
  method PrepareForAnalysis(table: seq<GradingRecord>) returns (r: Result<seq<StudentGrade>, AnalysisError>)
    ensures r.Success? <==> forall i :: 0 <= i < |table| ==> Expandable(table[i])
    ensures r == ExpandTable(table)
  {
    r := PrepareWith(table, Template);
  }

  /** The loops of `prepare_for_analysis` with the shared fields of a record's
      rows given by `template`. */
  method PrepareWith(table: seq<GradingRecord>, template: GradingRecord -> StudentGrade)
    returns (r: Result<seq<StudentGrade>, AnalysisError>)
    ensures r == ExpandAllWith(table, template)
  {
    var rows: seq<StudentGrade> := [];
    for i := 0 to |table|
      invariant ExpandAllWith(table[..i], template) == Success(rows)
    {
      assert table[..i + 1][..i] == table[..i];
      var students := ExpandCells(table[i], template);
      if students.Failure? {
        ExpandAllFailsAt(table, template, i);
        return students;
      }
      rows := rows + students.value;
    }
    assert table[..|table|] == table;
    return Success(rows);
  }

  /** The two inner loops for one record: bucket by bucket, one row per
      counted student. */
  method ExpandCells(rec: GradingRecord, template: GradingRecord -> StudentGrade)
    returns (r: Result<seq<StudentGrade>, AnalysisError>)
    ensures r == ExpandRecordWith(rec, template)
  {
    if |rec.counts| != |Grades| {
      return Failure(MissingColumns);
    }
    r := ExpandCounts(rec.counts, template(rec));
  }

  /** Bucket by bucket, the copies of `t` each cell counts. */
  method ExpandCounts(cs: seq<Count>, t: StudentGrade) returns (r: Result<seq<StudentGrade>, AnalysisError>)
    requires |cs| <= |Grades|
    ensures r.Success? <==> ParseCounts(cs).Success?
    ensures r.Success? ==> r.value == Students(t, ParseCounts(cs).value)
    ensures r.Failure? ==> r == Failure(NotACount)
  {
    var rows: seq<StudentGrade> := [];
    for k := 0 to |cs|
      invariant ParseCounts(cs[..k]).Success?
      invariant rows == Students(t, ParseCounts(cs[..k]).value)
    {
      var n: nat;
      match cs[k] {
        case Missing =>
          // the original skips a missing cell, which adds no rows
          n := 0;
        case NotANumber =>
          ParseCountsFailsAt(cs, k);
          return Failure(NotACount);
        case Text(text) =>
          var v := ParseNat(text);
          if v.None? {
            ParseCountsFailsAt(cs, k);
            return Failure(NotACount);
          }
          n := v.value;
      }
      rows := AppendCopies(rows, t.(grade := Grades[k]), n);
      ParseCountsExtend(cs, k, n);
      StudentsExtend(t, ParseCounts(cs[..k]).value, n);
    }
    assert cs[..|cs|] == cs;
    return Success(rows);
  }

  /** The innermost loop: `n` more rows `x`. */
  method AppendCopies(rows: seq<StudentGrade>, x: StudentGrade, n: nat) returns (r: seq<StudentGrade>)
    ensures r == rows + Replicate(x, n)
  {
    r := rows;
    for j := 0 to n
      invariant r == rows + Replicate(x, j)
    {
      r := r + [x];
    }
  }

  /** One more readable cell extends the parsed counts by its value. */
  lemma ParseCountsExtend(cs: seq<Count>, k: nat, n: nat)
    requires k < |cs| && ParseCounts(cs[..k]).Success? && CountValue(cs[k]) == Some(n)
    ensures ParseCounts(cs[..k + 1]) == Success(ParseCounts(cs[..k]).value + [n])
  {
    assert cs[..k + 1][..k] == cs[..k];
  }

  /** One more bucket appends its copies after the earlier buckets' rows. */
  lemma StudentsExtend(t: StudentGrade, ns: seq<nat>, n: nat)
    requires |ns| < |Grades|
    ensures Students(t, ns + [n]) == Students(t, ns) + Replicate(t.(grade := Grades[|ns|]), n)
  {
    assert (ns + [n])[..|ns|] == ns;
  }

  /** A cell that is not a count makes the whole row of cells fail. */
  lemma ParseCountsFailsAt(cs: seq<Count>, k: nat)
    requires k < |cs| && CountValue(cs[k]).None?
    ensures ParseCounts(cs) == Failure(NotACount)
  {
  }

  // ---------------------------------------------------------------------------
  // What the expansion contains
  // ---------------------------------------------------------------------------

  /** The rows of an expandable record: its template with each bucket's
      grade, as many times as the bucket's cell counts. */
  lemma {:induction false} ExpandRecordRows(r: GradingRecord, template: GradingRecord -> StudentGrade) returns (ns: seq<nat>)
    requires Expandable(r)
    ensures ns == ParseCounts(r.counts).value
    ensures |ns| == |Grades| && forall k :: 0 <= k < |Grades| ==> Some(ns[k]) == CountValue(r.counts[k])
    ensures ExpandRecordWith(r, template) == Success(Students(template(r), ns))
  {
    ns := ParseCounts(r.counts).value;
  }

  /** Record `r` yields as many rows as its cells count together, exactly as
      many with the k-th grade as its k-th cell counts, all of them its
      template with a bucket grade, ordered by grade. */
  lemma ExpandRecordContents(r: GradingRecord, template: GradingRecord -> StudentGrade, k: nat)
    requires Expandable(r) && k < |Grades|
    ensures ExpandAllWith([r], template).Success?
    ensures var s := ExpandAllWith([r], template).value;
      && |s| == Sum(ParseCounts(r.counts).value)
      && (forall i :: 0 <= i < |s| ==> s[i].grade in Grades)
      && multiset(s)[template(r).(grade := Grades[k])] == CountValue(r.counts[k]).value
      && (forall i :: 0 <= i < |s| ==> s[i] == template(r).(grade := s[i].grade))
      && (forall i, j :: 0 <= i < j < |s| ==> s[i].grade <= s[j].grade)
  {
    var ns := ExpandRecordRows(r, template);
    ExpandAllSingle(r, template);
    StudentsCount(template(r), ns, k);
    StudentsSorted(template(r), ns);
  }

  /** `prepare_for_analysis` on one record: as many rows with the k-th grade
      as its k-th cell counts, each carrying the record's exam name, stripped
      semester and examiner, and round, ordered by grade. */
  lemma PreparedRecord(r: GradingRecord, k: nat)
    requires Expandable(r) && k < |Grades|
    ensures ExpandTable([r]).Success?
    ensures var s := ExpandTable([r]).value;
      && |s| == Sum(ParseCounts(r.counts).value)
      && multiset(s)[Template(r).(grade := Grades[k])] == CountValue(r.counts[k]).value
      && (forall i :: 0 <= i < |s| ==> s[i] == Template(r).(grade := s[i].grade) && s[i].grade in Grades)
      && (forall i, j :: 0 <= i < j < |s| ==> s[i].grade <= s[j].grade)
  {
    ExpandRecordContents(r, Template, k);
  }

  /** A table of one record expands as that record does. */
  lemma ExpandAllSingle(r: GradingRecord, template: GradingRecord -> StudentGrade)
    ensures ExpandAllWith([r], template) == ExpandRecordWith(r, template)
  {
    assert [r][..0] == [];
    var last := ExpandRecordWith(r, template);
    if last.Success? {
      assert [] + last.value == last.value;
    }
  }

  /** Expanding a table is expanding its parts one after the other. */
  lemma {:induction false} ExpandAllAppend(a: seq<GradingRecord>, b: seq<GradingRecord>, template: GradingRecord -> StudentGrade)
    requires ExpandAllWith(a + b, template).Success?
    ensures ExpandAllWith(a, template).Success? && ExpandAllWith(b, template).Success?
    ensures ExpandAllWith(a + b, template).value == ExpandAllWith(a, template).value + ExpandAllWith(b, template).value
    decreases |b|
  {
    if |b| == 0 {
      assert a + b == a;
      assert ExpandAllWith(a, template).value + [] == ExpandAllWith(a, template).value;
    } else {
      var front, last := b[..|b| - 1], b[|b| - 1];
      assert b == front + [last];
      assert a + b == (a + front) + [last];
      ExpandAllSnoc(a + front, last, template);
      ExpandAllAppend(a, front, template);
      ExpandAllSnoc(front, last, template);
      var x, y := ExpandAllWith(a, template).value, ExpandAllWith(front, template).value;
      var z := ExpandRecordWith(last, template).value;
      ConcatAssoc(x, y, z);
    }
  }

  /** A table with one more record expands as the table followed by that
      record, and exactly when both do. */
  lemma ExpandAllSnoc(t: seq<GradingRecord>, r: GradingRecord, template: GradingRecord -> StudentGrade)
    ensures var whole, front, last := ExpandAllWith(t + [r], template), ExpandAllWith(t, template), ExpandRecordWith(r, template);
      && (whole.Success? <==> front.Success? && last.Success?)
      && (whole.Success? ==> whole.value == front.value + last.value)
  {
    var w := t + [r];
    assert w[..|w| - 1] == t;
    assert w[|w| - 1] == r;
  }

  /** Both parts of an expandable table are expandable. */
  lemma ExpandAllParts(a: seq<GradingRecord>, b: seq<GradingRecord>, template: GradingRecord -> StudentGrade)
    requires ExpandAllWith(a + b, template).Success?
    ensures ExpandAllWith(a, template).Success? && ExpandAllWith(b, template).Success?
  {
    var ab := a + b;
    forall i | 0 <= i < |a|
      ensures Expandable(a[i])
    {
      assert ab[i] == a[i];
    }
    forall i | 0 <= i < |b|
      ensures Expandable(b[i])
    {
      assert ab[|a| + i] == b[i];
    }
  }

  /** The rows of a non-empty expandable table end with those of its last
      record. */
  lemma ExpandAllStep(t: seq<GradingRecord>, template: GradingRecord -> StudentGrade)
    requires |t| > 0 && ExpandAllWith(t, template).Success?
    ensures ExpandAllWith(t[..|t| - 1], template).Success?
    ensures ExpandRecordWith(t[|t| - 1], template).Success?
    ensures ExpandAllWith(t, template).value
         == ExpandAllWith(t[..|t| - 1], template).value + ExpandRecordWith(t[|t| - 1], template).value
  {
  }

  /** The rows of `prepare_for_analysis` are the rows of each record in
      table order. */
  lemma ExpandTableAppend(a: seq<GradingRecord>, b: seq<GradingRecord>)
    requires ExpandTable(a + b).Success?
    ensures ExpandTable(a).Success? && ExpandTable(b).Success?
    ensures ExpandTable(a + b).value == ExpandTable(a).value + ExpandTable(b).value
  {
    ExpandAllAppend(a, b, Template);
  }
}

=== FILE: grade_split.dfy ===
/** The grade splitter (`_split_grades`, `hu_wiwi_grades.py` lines 180-189):
    a grade line `"<round> <examiner>;<participants> <n1.0> ... <n5.0>"` is cut
    into its fields. */
module GradeSplit {
  import opened Wrappers
  import opened Text
  import opened Numerals
  import opened Overview

  /** The fields of one grade line, all still text: the round, the examiner,
      the participant count and the eleven bucket counts from 1.0 to 5.0. */
  datatype GradeFields = GradeFields(round: string, examiner: string, participants: string, counts: seq<string>)

  /** Why a grade line does not have the expected shape. The original either
      raises here or misaligns the row's columns. */
  datatype SplitError =
    | NoSemicolon
    | ExtraSemicolon
    | NoExaminer
    | TokenCount(found: nat)
    | NoGradeLines

  /** `.replace("-", "0")` on a split cell: a lone dash means zero. */
  function DashToZero(t: string): (r: string)
    ensures t == "-" ==> AllDigits(r) && ValueOf(r) == 0
    ensures t != "-" ==> r == t
  {
    if t == "-" then "0" else t
  }

  /** The shape the splitter needs: exactly one ";", a space somewhere before
      it, and exactly eleven spaces (twelve fields) after it. */
  predicate WellShaped(t: string)
  {
    exists k :: 0 <= k < |t| && t[k] == ';' && ';' !in t[..k] && ';' !in t[k + 1..]
                && ' ' in t[..k] && multiset(t[k + 1..])[' '] == 11
  }

  /** The grade line the extractor builds from a round, an examiner and twelve
      fields. */
  function GradeLine(round: string, examiner: string, tokens: seq<string>): string
  {
    round + " " + examiner + ";" + Join(tokens, " ")
  }

  /** The eleven bucket fields, a lone "-" read as "0". */
  function CountFields(tokens: seq<string>): (cs: seq<string>)
    requires |tokens| == 12
    ensures |cs| == 11 && forall k :: 0 <= k < 11 ==> cs[k] == DashToZero(tokens[k + 1])
  {
    seq(11, k requires 0 <= k < 11 => DashToZero(tokens[k + 1]))
  }

  /** Strip the line, split it at ";", split the part before at its first
      space into round and examiner, split the part after at every single
      space into twelve fields, and read a lone "-" as "0". The line is split
      exactly when it is well shaped. */
  function SplitGrades(line: string): (r: Result<GradeFields, SplitError>)
    ensures r.Success? <==> WellShaped(Strip(line))
    ensures r.Success? ==> |r.value.counts| == 11 && ' ' !in r.value.round
                           && ';' !in r.value.round && ';' !in r.value.examiner
  {
    SplitStripped(Strip(line))
  }

  /** The splitter on a stripped line. Splitting at ";" must give exactly
      two parts (see `SemicolonHalves`); fewer or more make the original
      fail to assign its two columns. */
  function SplitStripped(t: string): (r: Result<GradeFields, SplitError>)
    ensures r.Success? <==> WellShaped(t)
    ensures r.Success? ==> |r.value.counts| == 11 && ' ' !in r.value.round
                           && ';' !in r.value.round && ';' !in r.value.examiner
    ensures r.Success? ==> |Split(t, ';')| == 2 && r.value.round + " " + r.value.examiner == Split(t, ';')[0]
  {
    if ';' !in t then Failure(NoSemicolon)
    else
      var k := IndexOf(t, ';');
      if ';' in t[k + 1..] then Failure(ExtraSemicolon)
      else
        WellShapedAt(t, k);
        SemicolonHalves(t);
        SplitHalves(t[..k], t[k + 1..])
  }

  /** The only position a well-shaped line can be cut at is its first ";". */
  lemma WellShapedAt(t: string, k: nat)
    requires k < |t| && t[k] == ';' && ';' !in t[..k]
    ensures WellShaped(t) <==> ';' !in t[k + 1..] && ' ' in t[..k] && multiset(t[k + 1..])[' '] == 11
  {
    forall j | 0 <= j < k
      ensures t[j] != ';'
    {
      assert t[..k][j] == t[j];
    }
    forall j | k < j < |t|
      ensures ';' in t[..j]
    {
      assert t[..j][k] == ';';
    }
  }

  /** `str.split(";")` on a stripped line gives two parts exactly when the
      line has one ";", and they are the texts before and after it. */
  lemma SemicolonHalves(t: string)
    ensures |Split(t, ';')| == 2 <==> ';' in t && ';' !in t[IndexOf(t, ';') + 1..]
    ensures |Split(t, ';')| == 2 ==> Split(t, ';') == [t[..IndexOf(t, ';')], t[IndexOf(t, ';') + 1..]]
  {
  }

  /** The part before the ";" split at its first space, the part after at
      every space. */
  function SplitHalves(prefix: string, suffix: string): (r: Result<GradeFields, SplitError>)
    ensures r.Success? <==> ' ' in prefix && multiset(suffix)[' '] == 11
    ensures r.Success? ==> && |r.value.counts| == 11 && ' ' !in r.value.round
                           && r.value.round + " " + r.value.examiner == prefix
  {
    if ' ' !in prefix then Failure(NoExaminer)
    else
      var i := IndexOf(prefix, ' ');
      var tokens := Split(suffix, ' ');
      if |tokens| != 12 then Failure(TokenCount(|tokens|))
      else
        assert prefix == prefix[..i] + " " + prefix[i + 1..];
        Success(GradeFields(prefix[..i], prefix[i + 1..], DashToZero(tokens[0]),
                            CountFields(tokens)))
  }

  /** Nothing is lost: the fields of a split line, put back together with the
      twelve fields as they were before the dash rewrite, give the stripped
      line. */
  lemma SplitGradesRebuilds(line: string)
    requires SplitGrades(line).Success?
    ensures var f := SplitGrades(line).value;
      exists tokens: seq<string> ::
        && |tokens| == 12
        && Strip(line) == GradeLine(f.round, f.examiner, tokens)
        && f.participants == DashToZero(tokens[0])
        && forall k :: 0 <= k < 11 ==> f.counts[k] == DashToZero(tokens[k + 1])
  {
    var tokens := SplitStrippedRebuilds(Strip(line));
  }

  lemma SplitStrippedRebuilds(t: string) returns (tokens: seq<string>)
    requires SplitStripped(t).Success?
    ensures var f := SplitStripped(t).value;
      && |tokens| == 12
      && t == GradeLine(f.round, f.examiner, tokens)
      && f.participants == DashToZero(tokens[0])
      && forall k :: 0 <= k < 11 ==> f.counts[k] == DashToZero(tokens[k + 1])
  {
    var k := IndexOf(t, ';');
    var prefix, suffix := t[..k], t[k + 1..];
    assert SplitStripped(t) == SplitHalves(prefix, suffix);
    tokens := SplitHalvesRebuilds(prefix, suffix);
    CutAt(t, k);
  }

  lemma SplitHalvesRebuilds(prefix: string, suffix: string) returns (tokens: seq<string>)
    requires SplitHalves(prefix, suffix).Success?
    ensures var f := SplitHalves(prefix, suffix).value;
      && |tokens| == 12
      && prefix + ";" + suffix == GradeLine(f.round, f.examiner, tokens)
      && f.participants == DashToZero(tokens[0])
      && forall k :: 0 <= k < 11 ==> f.counts[k] == DashToZero(tokens[k + 1])
  {
    tokens := Split(suffix, ' ');
    JoinSplit(suffix, ' ');
  }

  lemma CutAt(s: string, i: nat)
    requires i < |s|
    ensures s == s[..i] + [s[i]] + s[i + 1..]
  {
  }

  /** A field as the PDF tables print it: non-empty, without whitespace or ";". */
  predicate Word(w: string)
  {
    |w| > 0 && forall i :: 0 <= i < |w| ==> !IsSpace(w[i]) && w[i] != ';'
  }

  lemma {:induction false} JoinEndsWith(parts: seq<string>, sep: string)
    requires |parts| > 0
    ensures var j := Join(parts, sep); var last := parts[|parts| - 1];
      |last| <= |j| && j[|j| - |last|..] == last
    decreases |parts|
  {
    if |parts| > 1 {
      JoinEndsWith(parts[1..], sep);
    }
  }

  /** Splitting inverts rendering: a grade line built from a round, an
      examiner and twelve fields, with any whitespace around it, splits back
      into exactly those, with a lone "-" read as "0". */
  lemma SplitGradesOfLine(lead: string, round: string, examiner: string, tokens: seq<string>, trail: string)
    requires AllSpace(lead) && AllSpace(trail)
    requires Word(round) && ';' !in examiner
    requires |tokens| == 12 && forall k :: 0 <= k < 12 ==> Word(tokens[k])
    ensures SplitGrades(lead + GradeLine(round, examiner, tokens) + trail)
         == Success(GradeFields(round, examiner, DashToZero(tokens[0]),
                                CountFields(tokens)))
  {
    var core := GradeLine(round, examiner, tokens);
    JoinEndsWith(tokens, " ");
    assert core[|core| - 1] == tokens[11][|tokens[11]| - 1];
    StripFramed(lead, core, trail);
    SplitStrippedOfLine(round, examiner, tokens);
    SplitHalvesOfLine(round, examiner, tokens);
  }

  /** The bare grade line splits back into its fields. */
  lemma SplitGradeLine(round: string, examiner: string, tokens: seq<string>) returns (f: GradeFields)
    requires Word(round) && ';' !in examiner
    requires |tokens| == 12 && forall k :: 0 <= k < 12 ==> Word(tokens[k])
    ensures SplitGrades(GradeLine(round, examiner, tokens)) == Success(f)
    ensures f.round == round && f.examiner == examiner && f.participants == DashToZero(tokens[0])
    ensures |f.counts| == 11 && forall k :: 0 <= k < 11 ==> f.counts[k] == DashToZero(tokens[k + 1])
  {
    var line := GradeLine(round, examiner, tokens);
    assert "" + line + "" == line;
    assert AllSpace("");
    SplitGradesOfLine("", round, examiner, tokens, "");
    f := SplitGrades(line).value;
  }

  lemma SplitStrippedOfLine(round: string, examiner: string, tokens: seq<string>)
    requires Word(round) && ';' !in examiner
    requires |tokens| == 12 && forall k :: 0 <= k < 12 ==> Word(tokens[k])
    ensures SplitStripped(GradeLine(round, examiner, tokens))
         == SplitHalves(round + " " + examiner, Join(tokens, " "))
  {
    var prefix := round + " " + examiner;
    var j := Join(tokens, " ");
    var core := GradeLine(round, examiner, tokens);
    assert core == prefix + ";" + j;
    assert ';' !in prefix;
    JoinAvoids(tokens, " ", ';');
    Around(prefix, ';', j);
    IndexOfUnique(core, ';', |prefix|);
  }

  /** The pieces around one character of `a + [c] + b`. */
  lemma Around(a: string, c: char, b: string)
    ensures var s := a + [c] + b;
      s[|a|] == c && s[..|a|] == a && s[|a| + 1..] == b
  {
  }

  lemma SplitHalvesOfLine(round: string, examiner: string, tokens: seq<string>)
    requires Word(round)
    requires |tokens| == 12 && forall k :: 0 <= k < 12 ==> Word(tokens[k])
    ensures SplitHalves(round + " " + examiner, Join(tokens, " "))
         == Success(GradeFields(round, examiner, DashToZero(tokens[0]),
                                CountFields(tokens)))
  {
    var prefix := round + " " + examiner;
    assert IsSpace(' ');
    assert ' ' !in round;
    assert prefix[|round|] == ' ' && prefix[..|round|] == round;
    IndexOfUnique(prefix, ' ', |round|);
    assert prefix[|round| + 1..] == examiner;
    forall k | 0 <= k < 12
      ensures ' ' !in tokens[k]
    {
    }
    SplitJoin(tokens, ' ');
  }

  // ---------------------------------------------------------------------------
  // The whole table
  // ---------------------------------------------------------------------------

  /** One count cell after splitting: missing (pandas' `None`), not a number
      (pandas' `NaN`, left by a row without a grade line), or text. */
  datatype Count = Missing | NotANumber | Text(text: string)

  /** An overview row extended with the split grade line. Text fields of a row
      without a grade line are `NaN` in the original; they are `""` here, and
      its counts are `NotANumber`. */
  datatype GradingRecord = GradingRecord(
    overview: ExamRecord,
    round: string,
    examiner: string,
    participants: Count,
    counts: seq<Count>)

  function AsText(cs: seq<string>): (r: seq<Count>)
    ensures |r| == |cs| && forall k :: 0 <= k < |cs| ==> r[k] == Text(cs[k])
  {
    if |cs| == 0 then [] else AsText(cs[..|cs| - 1]) + [Text(cs[|cs| - 1])]
  }

  function NotNumbers(n: nat): (r: seq<Count>)
    ensures |r| == n && forall k :: 0 <= k < n ==> r[k] == NotANumber
  {
    if n == 0 then [] else NotNumbers(n - 1) + [NotANumber]
  }

  function FromFields(row: ExamRecord, f: GradeFields): GradingRecord
  {
    GradingRecord(row, f.round, f.examiner, Text(f.participants),
                  AsText(f.counts))
  }

  function Unread(row: ExamRecord): GradingRecord
  {
    GradingRecord(row, "", "", NotANumber, NotNumbers(11))
  }

  /** One row: without a grade line it keeps empty fields and unreadable
      counts; with one, the line's fields. */
  function SplitRow(row: (ExamRecord, Option<string>)): (r: Result<GradingRecord, SplitError>)
    ensures r.Success? <==> row.1.None? || SplitGrades(row.1.value).Success?
    ensures r.Success? ==> r.value.overview == row.0 && |r.value.counts| == 11
    ensures row.1.None? ==> r == Success(Unread(row.0))
  {
    match row.1
    case None => Success(Unread(row.0))
    case Some(line) =>
      match SplitGrades(line)
      case Failure(e) => Failure(e)
      case Success(f) => Success(FromFields(row.0, f))
  }

  /** Every row split, in order; the first malformed line fails the table. */
  function SplitRows(rows: seq<(ExamRecord, Option<string>)>): (r: Result<seq<GradingRecord>, SplitError>)
    ensures r.Success? <==> forall i :: 0 <= i < |rows| ==> SplitRow(rows[i]).Success?
    ensures r.Success? ==> |r.value| == |rows| && forall i :: 0 <= i < |rows| ==> Success(r.value[i]) == SplitRow(rows[i])
    decreases |rows|
  {
    if |rows| == 0 then Success([])
    else
      var rest := SplitRows(rows[1..]);
      var head := SplitRow(rows[0]);
      AllSplitCons(rows);
      if head.Failure? then Failure(head.error)
      else if rest.Failure? then rest
      else
        SplitCons(rows, head.value, rest.value);
        Success([head.value] + rest.value)
  }

  /** Every row splits exactly when the first does and every later one does. */
  lemma AllSplitCons(rows: seq<(ExamRecord, Option<string>)>)
    requires |rows| > 0
    ensures (forall i :: 0 <= i < |rows| ==> SplitRow(rows[i]).Success?)
        <==> SplitRow(rows[0]).Success? && forall i :: 0 <= i < |rows[1..]| ==> SplitRow(rows[1..][i]).Success?
  {
    AllCons(rows, x => SplitRow(x).Success?);
  }

  /** The first row's split in front of the later rows' splits is the split
      of every row. */
  lemma SplitCons(rows: seq<(ExamRecord, Option<string>)>, head: GradingRecord, rest: seq<GradingRecord>)
    requires |rows| > 0 && Success(head) == SplitRow(rows[0])
    requires |rest| == |rows| - 1
    requires forall i :: 0 <= i < |rest| ==> Success(rest[i]) == SplitRow(rows[1..][i])
    ensures forall i :: 0 <= i < |rows| ==> Success(([head] + rest)[i]) == SplitRow(rows[i])
  {
    ConsPointwise(rows, head, rest, SplitRow);
  }

  /** `f` applied to the first input, in front of `f` applied pointwise to
      the others, is `f` applied pointwise to all. */
  lemma ConsPointwise<A, B, E>(xs: seq<A>, head: B, rest: seq<B>, f: A -> Result<B, E>)
    requires |xs| > 0 && Success(head) == f(xs[0])
    requires |rest| == |xs| - 1
    requires forall i :: 0 <= i < |rest| ==> Success(rest[i]) == f(xs[1..][i])
    ensures forall i :: 0 <= i < |xs| ==> Success(([head] + rest)[i]) == f(xs[i])
  {
    RelatedCons(xs[0], xs[1..], head, rest, (x, g) => Success(g) == f(x));
    assert [xs[0]] + xs[1..] == xs;
  }

  /** `_split_grades` over the table built by pulling grade lines: each row
      paired with its grade line, or `None` where extraction gave nothing. A
      table in which no row has a grade line loses its grade column to
      `dropna` and the original raises `KeyError`. */
  function SplitTable(rows: seq<(ExamRecord, Option<string>)>): (r: Result<seq<GradingRecord>, SplitError>)
    ensures r.Success? <==> && (exists i :: 0 <= i < |rows| && rows[i].1.Some?)
                            && (forall i :: 0 <= i < |rows| ==> SplitRow(rows[i]).Success?)
    ensures (forall i :: 0 <= i < |rows| ==> rows[i].1.None?) ==> r == Failure(NoGradeLines)
    ensures r.Success? ==> |r.value| == |rows| && forall i :: 0 <= i < |rows| ==>
      && Success(r.value[i]) == SplitRow(rows[i])
      && r.value[i].overview == rows[i].0 && |r.value[i].counts| == 11
  {
    if forall i :: 0 <= i < |rows| ==> rows[i].1.None? then Failure(NoGradeLines)
    else SplitRows(rows)
  }

  /** A table of one row with a splittable line becomes that row's record. */
  lemma SplitTableSingle(row: ExamRecord, line: string)
    requires SplitGrades(line).Success?
    ensures SplitTable([(row, Some(line))]) == Success([FromFields(row, SplitGrades(line).value)])
  {
    var x := (row, Some(line));
    assert SplitRow(x) == Success(FromFields(row, SplitGrades(line).value));
    SplitRowsSingle(x);
    assert [x][0].1.Some?;
  }

  /** A table of one row splits as that row does. */
  lemma SplitRowsSingle(x: (ExamRecord, Option<string>))
    ensures SplitRows([x]) == match SplitRow(x) case Success(g) => Success([g]) case Failure(e) => Failure(e)
  {
    var s := [x];
    assert s[0] == x;
    assert s[1..] == [];
    var rest := SplitRows(s[1..]);
    assert rest == Success([]);
    var head := SplitRow(x);
    if head.Success? {
      assert [head.value] + rest.value == [head.value];
    }
  }
}

=== FILE: numerals.dfy ===
/** Grade-bucket counts arrive as digit strings (`int(float(count))` in the
    expander). Only plain decimal digit strings are accepted here. */
module Numerals {
  import opened Wrappers

  predicate IsDigit(c: char)
  {
    '0' <= c <= '9'
  }

  predicate AllDigits(s: string)
  {
    forall i :: 0 <= i < |s| ==> IsDigit(s[i])
  }

  /** Decimal value of a digit string, most significant digit first. */
  function ValueOf(s: string): nat
    requires AllDigits(s)
  {
    if |s| == 0 then 0
    else 10 * ValueOf(s[..|s| - 1]) + (s[|s| - 1] as int - '0' as int)
  }

  /** A count cell read as a natural number; `None` when it is not a non-empty
      string of decimal digits. */
  function ParseNat(s: string): (r: Option<nat>)
    ensures r.Some? <==> |s| > 0 && AllDigits(s)
  {
    if |s| > 0 && AllDigits(s) then Some(ValueOf(s)) else None
  }

  function DigitChar(d: nat): (c: char)
    requires d < 10
    ensures IsDigit(c) && c as int - '0' as int == d
  {
    ('0' as int + d) as char
  }

  /** Decimal rendering of a natural number, without leading zeros. */
  function ShowNat(n: nat): (s: string)
    ensures |s| > 0 && AllDigits(s)
  {
    if n < 10 then [DigitChar(n)] else ShowNat(n / 10) + [DigitChar(n % 10)]
  }

  /** Reading back a rendered number gives the number. */
  lemma {:induction false} ParseShow(n: nat)
    ensures ParseNat(ShowNat(n)) == Some(n)
  {
    var s := ShowNat(n);
    if n >= 10 {
      ParseShow(n / 10);
      assert s[..|s| - 1] == ShowNat(n / 10);
      assert s[|s| - 1] == DigitChar(n % 10);
      assert ValueOf(s) == 10 * (n / 10) + n % 10;
    } else {
      assert s[..0] == [];
      assert ValueOf(s) == n;
    }
  }
}

=== FILE: overview.dfy ===
/** The overview scraper (`scrape_overview`, `hu_wiwi_grades.py` lines 43-102)
    and the multi-overview aggregator (`scrape_all_overviews`, lines 104-135),
    with each overview table held as a sequence of records. */
module Overview {
  import opened Wrappers
  import opened Text
  import opened Pages
  import opened Semesters
  import opened Sources

  /** One row of an overview table. */
  datatype ExamRecord = ExamRecord(
    exam: string,
    url: string,
    datePublished: string,
    reviewDetails: string,
    semester: string)

  /** Why a scrape aborts.
      - `MissingCell`: a data row has fewer than three cells, and the original
        raises `IndexError` on `text[1]` or `text[2]`.
      - `NoExamColumn`: no data row was read and an exam filter was given.
        The length mask over the empty table is then not a boolean column, so
        pandas takes it as a list of column labels and keeps no column, and
        the filter's `df['exam']` raises `KeyError`. */
  datatype ScrapeError = MissingCell | NoExamColumn

  // ---------------------------------------------------------------------------
  // Order-preserving selection of rows
  // ---------------------------------------------------------------------------

  /** `a` is `b` with some elements left out, the rest in their original order. */
  predicate IsSubsequence<T(==)>(a: seq<T>, b: seq<T>)
    decreases |b|
  {
    |a| == 0 || (|b| > 0 && ((a[0] == b[0] && IsSubsequence(a[1..], b[1..])) || IsSubsequence(a, b[1..])))
  }

  /** `rows` are drawn, in order, from `source`, and every row of `source`
      that is long and mentions `exam` is kept as often as it occurs there. */
  ghost predicate SelectsFrom(rows: seq<ExamRecord>, source: seq<ExamRecord>, exam: string)
  {
    && IsSubsequence(rows, source)
    && forall x :: LongExam(x) && Contains(x.exam, exam) ==> multiset(rows)[x] == multiset(source)[x]
  }

  /** A boolean mask `df[mask]`: the rows satisfying `keep`, in order. Nothing is
      added or reordered, every kept row satisfies `keep`, and every row that
      satisfies it is kept as often as it occurs. */
  function Where<T>(rows: seq<T>, keep: T -> bool): (r: seq<T>)
    ensures |r| <= |rows|
    ensures forall i :: 0 <= i < |r| ==> keep(r[i])
    decreases |rows|
  {
    if |rows| == 0 then []
    else
      var rest := Where(rows[1..], keep);
      if keep(rows[0]) then [rows[0]] + rest else rest
  }

  /** The mask selects in order, and keeps every row that passes as often as
      it occurs while dropping every row that fails. */
  lemma {:induction false} WhereSpec<T>(rows: seq<T>, keep: T -> bool)
    ensures IsSubsequence(Where(rows, keep), rows)
    ensures forall x :: keep(x) ==> multiset(Where(rows, keep))[x] == multiset(rows)[x]
    decreases |rows|
  {
    if |rows| > 0 {
      WhereSpec(rows[1..], keep);
      assert rows == [rows[0]] + rows[1..];
    }
  }

  /** Filtering a concatenation filters each part. */
  lemma {:induction false} WhereConcat(a: seq<ExamRecord>, b: seq<ExamRecord>, keep: ExamRecord -> bool)
    ensures Where(a + b, keep) == Where(a, keep) + Where(b, keep)
    decreases |a|
  {
    if |a| > 0 {
      var x, tail := a[0], a[1..];
      assert a == [x] + tail;
      assert a + b == [x] + (tail + b);
      WhereCons(x, tail + b, keep);
      WhereCons(x, tail, keep);
      WhereConcat(tail, b, keep);
      if keep(x) {
        assert [x] + (Where(tail, keep) + Where(b, keep)) == ([x] + Where(tail, keep)) + Where(b, keep);
      }
    } else {
      assert a + b == b;
    }
  }

  /** The filter decides about a leading row on its own. */
  lemma WhereCons(x: ExamRecord, rest: seq<ExamRecord>, keep: ExamRecord -> bool)
    ensures Where([x] + rest, keep) == if keep(x) then [x] + Where(rest, keep) else Where(rest, keep)
  {
    assert ([x] + rest)[1..] == rest;
  }

  /** A filter that every row passes changes nothing. */
  lemma {:induction false} WhereAll(rows: seq<ExamRecord>, keep: ExamRecord -> bool)
    requires forall i :: 0 <= i < |rows| ==> keep(rows[i])
    ensures Where(rows, keep) == rows
    decreases |rows|
  {
    if |rows| > 0 {
      WhereAll(rows[1..], keep);
    }
  }

  /** Filtering twice with the same test is filtering once. */
  lemma WhereIdempotent(rows: seq<ExamRecord>, keep: ExamRecord -> bool)
    ensures Where(Where(rows, keep), keep) == Where(rows, keep)
  {
    WhereAll(Where(rows, keep), keep);
  }

  /** Two filters may be applied in either order. */
  lemma {:induction false} WhereCommute(rows: seq<ExamRecord>, k1: ExamRecord -> bool, k2: ExamRecord -> bool)
    ensures Where(Where(rows, k1), k2) == Where(Where(rows, k2), k1)
    decreases |rows|
  {
    if |rows| > 0 {
      WhereCommute(rows[1..], k1, k2);
    }
  }

  // ---------------------------------------------------------------------------
  // Row cleanup and the exam filter
  // ---------------------------------------------------------------------------

  /** The length guard `len(exam) > 1` against artefact rows. */
  predicate LongExam(r: ExamRecord)
  {
    |r.exam| > 1
  }

  /** The exam filter `df['exam'].str.contains(exam)`, read as a literal
      substring test. */
  predicate Mentions(exam: string, r: ExamRecord)
  {
    Contains(r.exam, exam)
  }

  /** `df[df['exam'].str.contains(exam)]` when `exam` is non-empty. */
  function FilterExam(rows: seq<ExamRecord>, exam: string): (r: seq<ExamRecord>)
    ensures |r| <= |rows|
    ensures exam == "" ==> r == rows
    ensures forall i :: 0 <= i < |r| ==> Contains(r[i].exam, exam)
  {
    if exam != "" then Where(rows, r => Mentions(exam, r)) else rows
  }

  /** The filter keeps an order-preserving selection of the rows; an empty
      filter keeps every row; a non-empty one keeps exactly the rows whose exam
      contains it. */
  lemma FilterExamSpec(rows: seq<ExamRecord>, exam: string)
    ensures var r := FilterExam(rows, exam);
      && IsSubsequence(r, rows)
      && (exam == "" ==> r == rows)
      && (forall i :: 0 <= i < |r| ==> Contains(r[i].exam, exam))
      && (forall x: ExamRecord :: Contains(x.exam, exam) ==> multiset(r)[x] == multiset(rows)[x])
  {
    var r := FilterExam(rows, exam);
    if exam == "" {
      SubsequenceRefl(rows);
      forall x: ExamRecord | Contains(x.exam, exam) ensures multiset(r)[x] == multiset(rows)[x] { }
    } else {
      WhereSpec(rows, r => Mentions(exam, r));
    }
  }

  lemma {:induction false} SubsequenceRefl<T>(s: seq<T>)
    ensures IsSubsequence(s, s)
    decreases |s|
  {
    if |s| > 0 {
      SubsequenceRefl(s[1..]);
    }
  }

  /** Applying the exam filter again changes nothing. */
  lemma FilterExamIdempotent(rows: seq<ExamRecord>, exam: string)
    ensures FilterExam(FilterExam(rows, exam), exam) == FilterExam(rows, exam)
  {
    if exam != "" {
      WhereIdempotent(rows, r => Mentions(exam, r));
    }
  }

  /** Filtering a concatenation filters each part. */
  lemma FilterExamConcat(a: seq<ExamRecord>, b: seq<ExamRecord>, exam: string)
    ensures FilterExam(a + b, exam) == FilterExam(a, exam) + FilterExam(b, exam)
  {
    if exam != "" {
      WhereConcat(a, b, r => Mentions(exam, r));
    }
  }

  /** `t` is `s` with every newline turned into a space and every other
      character kept in place. */
  predicate Unfolded(s: string, t: string)
  {
    |t| == |s| && forall i :: 0 <= i < |s| ==> t[i] == (if s[i] == '\n' then ' ' else s[i])
  }

  /** A newline-free copy of a text field: `str.replace("\n", " ")`. */
  function OneLine(s: string): (r: string)
    ensures Unfolded(s, r)
    ensures '\n' !in r
  {
    var r := ReplaceAll(s, "\n", " ");
    ReplaceChar(s, '\n', ' ');
    r
  }

  /** Newlines in exam, url, date and review details become spaces; the
      semester is left alone. */
  function CollapseNewlines(r: ExamRecord): (c: ExamRecord)
    ensures Unfolded(r.exam, c.exam) && Unfolded(r.url, c.url)
    ensures Unfolded(r.datePublished, c.datePublished) && Unfolded(r.reviewDetails, c.reviewDetails)
    ensures c.semester == r.semester && SingleLine(c)
  {
    r.(exam := OneLine(r.exam), url := OneLine(r.url),
       datePublished := OneLine(r.datePublished), reviewDetails := OneLine(r.reviewDetails))
  }

  /** Every row with its newlines collapsed, in order. */
  function CollapseAll(raw: seq<ExamRecord>): (r: seq<ExamRecord>)
    ensures |r| == |raw|
    ensures forall i :: 0 <= i < |r| ==> r[i] == CollapseNewlines(raw[i])
  {
    seq(|raw|, i requires 0 <= i < |raw| => CollapseNewlines(raw[i]))
  }

  /** Collapsing newlines and dropping short names never changes a row's
      semester. */
  lemma CleanupSemester(raw: seq<ExamRecord>, semester: string)
    requires forall i :: 0 <= i < |raw| ==> raw[i].semester == semester
    ensures forall i :: 0 <= i < |Cleanup(raw)| ==> Cleanup(raw)[i].semester == semester
  {
    var lines := CollapseAll(raw);
    assert forall i :: 0 <= i < |lines| ==> lines[i].semester == semester;
    SubsequenceKeeps(Cleanup(raw), lines, (x: ExamRecord) => x.semester == semester);
  }

  predicate SingleLine(r: ExamRecord)
  {
    '\n' !in r.exam && '\n' !in r.url && '\n' !in r.datePublished && '\n' !in r.reviewDetails
  }

  /** The cleanup after collecting rows: newlines collapsed in every row, then
      rows with an exam name of at most one character dropped. */
  function Cleanup(raw: seq<ExamRecord>): (r: seq<ExamRecord>)
    ensures IsSubsequence(r, CollapseAll(raw))
    ensures forall x :: LongExam(x) ==> multiset(r)[x] == multiset(CollapseAll(raw))[x]
    ensures forall i :: 0 <= i < |r| ==> LongExam(r[i]) && SingleLine(r[i])
    ensures |r| <= |raw|
  {
    var lines := CollapseAll(raw);
    var r := Where(lines, LongExam);
    WhereSpec(lines, LongExam);
    SubsequenceLength(r, lines);
    SubsequenceKeeps(r, lines, SingleLine);
    r
  }

  lemma {:induction false} SubsequenceLength<T>(a: seq<T>, b: seq<T>)
    requires IsSubsequence(a, b)
    ensures |a| <= |b|
    decreases |b|
  {
    if |a| > 0 {
      if a[0] == b[0] && IsSubsequence(a[1..], b[1..]) {
        SubsequenceLength(a[1..], b[1..]);
      } else {
        SubsequenceLength(a, b[1..]);
      }
    }
  }

  /** A property of every element of `b` holds of every element of a subsequence. */
  lemma {:induction false} SubsequenceKeeps<T>(a: seq<T>, b: seq<T>, p: T -> bool)
    requires IsSubsequence(a, b)
    requires forall i :: 0 <= i < |b| ==> p(b[i])
    ensures forall i :: 0 <= i < |a| ==> p(a[i])
    decreases |b|
  {
    if |a| > 0 {
      if a[0] == b[0] && IsSubsequence(a[1..], b[1..]) {
        SubsequenceKeeps(a[1..], b[1..], p);
        assert forall i :: 1 <= i < |a| ==> a[i] == a[1..][i - 1];
      } else {
        SubsequenceKeeps(a, b[1..], p);
      }
    }
  }

  /** A selection from a selection is a selection. */
  lemma {:induction false} SubsequenceTrans<T>(a: seq<T>, b: seq<T>, c: seq<T>)
    requires IsSubsequence(a, b) && IsSubsequence(b, c)
    ensures IsSubsequence(a, c)
    decreases |c|
  {
    if |a| > 0 {
      if b[0] == c[0] && IsSubsequence(b[1..], c[1..]) {
        if a[0] == b[0] && IsSubsequence(a[1..], b[1..]) {
          SubsequenceTrans(a[1..], b[1..], c[1..]);
        } else {
          SubsequenceTrans(a, b[1..], c[1..]);
        }
      } else {
        SubsequenceTrans(a, b, c[1..]);
      }
    }
  }

  // ---------------------------------------------------------------------------
  // scrape_overview
  // ---------------------------------------------------------------------------

  /** The semester of every row of a page: its heading label, normalised. */
  function PageSemester(page: Page): (r: string)
    ensures IsNormalized(r)
  {
    Normalize(HeadingLabel(page, OverviewFallback))
  }

  /** A row that the scraper skips: no cells, or a first cell in bold (a header). */
  predicate Skipped(row: seq<Cell>)
  {
    |row| == 0 || Contains(row[0].markup, "strong")
  }

  /** A row that holds data: one the scraper does not skip. */
  predicate IsDataRow(row: seq<Cell>)
  {
    !Skipped(row)
  }

  /** Record `x` is what the data row `row` of a page with semester
      `semester` reads as: the texts of its first three cells as exam, date and
      review details; as url the `href` of the first cell's link with the
      `resolveuid` rule applied, or "" when that cell has no link. */
  predicate ReadsAs(row: seq<Cell>, semester: string, x: ExamRecord)
  {
    && |row| >= 3
    && x.exam == row[0].text && x.datePublished == row[1].text && x.reviewDetails == row[2].text
    && x.semester == semester
    && (row[0].link.None? ==> x.url == "")
    && (row[0].link.Some? ==> x.url == NormalizeLink(row[0].link.value))
  }

  /** One table row read into a record, `None` for a skipped row. */
  function ReadRow(row: seq<Cell>, semester: string): (r: Result<Option<ExamRecord>, ScrapeError>)
    ensures r == Success(None) <==> Skipped(row)
    ensures r.Failure? <==> !Skipped(row) && |row| < 3
    ensures r.Success? && r.value.Some? ==> ReadsAs(row, semester, r.value.value)
    ensures r.Failure? ==> r.error == MissingCell
  {
    if Skipped(row) then Success(None)
    else if |row| < 3 then Failure(MissingCell)
    else
      var url := match row[0].link
        case None => ""
        case Some(href) => NormalizeLink(href);
      Success(Some(ExamRecord(row[0].text, url, row[1].text, row[2].text, semester)))
  }

  /** All rows of the page's table bodies, in document order. Reading fails
      exactly when some row that is not skipped has fewer than three cells;
      otherwise the records are the data rows read one by one, in order. */
  function ReadRows(rows: seq<seq<Cell>>, semester: string): (r: Result<seq<ExamRecord>, ScrapeError>)
    ensures r.Success? <==> forall i :: 0 <= i < |rows| ==> Skipped(rows[i]) || |rows[i]| >= 3
    ensures r.Success? ==> |r.value| == |Where(rows, IsDataRow)| <= |rows|
    ensures r.Success? ==> forall j :: 0 <= j < |r.value| ==> ReadsAs(Where(rows, IsDataRow)[j], semester, r.value[j])
    ensures r.Success? ==> forall j :: 0 <= j < |r.value| ==> r.value[j].semester == semester
    ensures r.Failure? ==> r.error == MissingCell
    decreases |rows|
  {
    if |rows| == 0 then Success([])
    else
      var rest := ReadRows(rows[1..], semester);
      var restData := Where(rows[1..], IsDataRow);
      ReadableCons(rows);
      match ReadRow(rows[0], semester)
      case Failure(e) => Failure(e)
      case Success(None) =>
        assert Where(rows, IsDataRow) == restData;
        rest
      case Success(Some(rec)) =>
        assert Where(rows, IsDataRow) == [rows[0]] + restData;
        if rest.Success? then
          ReadsAsCons(rows[0], restData, semester, rec, rest.value);
          Success([rec] + rest.value)
        else rest
  }

  /** Every row is skipped or long enough exactly when the first is and every
      later one is. */
  lemma ReadableCons(rows: seq<seq<Cell>>)
    requires |rows| > 0
    ensures (forall i :: 0 <= i < |rows| ==> Skipped(rows[i]) || |rows[i]| >= 3)
        <==> (Skipped(rows[0]) || |rows[0]| >= 3)
             && forall i :: 0 <= i < |rows[1..]| ==> Skipped(rows[1..][i]) || |rows[1..][i]| >= 3
  {
    AllCons(rows, row => Skipped(row) || |row| >= 3);
  }

  /** A row read in front of rows read pointwise is all rows read pointwise. */
  lemma ReadsAsCons(row: seq<Cell>, rows: seq<seq<Cell>>, semester: string, rec: ExamRecord, recs: seq<ExamRecord>)
    requires ReadsAs(row, semester, rec)
    requires |recs| == |rows| && forall j :: 0 <= j < |recs| ==> ReadsAs(rows[j], semester, recs[j])
    ensures forall j :: 0 <= j < |recs| + 1 ==> ReadsAs(([row] + rows)[j], semester, ([rec] + recs)[j])
  {
    RelatedCons(row, rows, rec, recs, (a, b) => ReadsAs(a, semester, b));
  }

  /** A property holds for every element exactly when it holds for the first
      and for every later one. */
  lemma AllCons<T>(xs: seq<T>, p: T -> bool)
    requires |xs| > 0
    ensures (forall i :: 0 <= i < |xs| ==> p(xs[i])) <==> p(xs[0]) && forall i :: 0 <= i < |xs[1..]| ==> p(xs[1..][i])
  {
    assert forall i :: 1 <= i < |xs| ==> xs[i] == xs[1..][i - 1];
  }

  /** Two related elements in front of two pointwise related sequences give
      pointwise related sequences. */
  lemma RelatedCons<A, B>(x: A, xs: seq<A>, y: B, ys: seq<B>, rel: (A, B) -> bool)
    requires rel(x, y)
    requires |ys| == |xs| && forall j :: 0 <= j < |ys| ==> rel(xs[j], ys[j])
    ensures forall j :: 0 <= j < |ys| + 1 ==> rel(([x] + xs)[j], ([y] + ys)[j])
  {
    forall j | 1 <= j < |ys| + 1
      ensures rel(([x] + xs)[j], ([y] + ys)[j])
    {
      assert ([x] + xs)[j] == xs[j - 1] && ([y] + ys)[j] == ys[j - 1];
    }
  }

  /** `scrape_overview` on the fetched page. It fails when a data row lacks a
      cell, or when no data row was read and a filter was given. Otherwise the
      rows are the page's records with newlines collapsed, in order, keeping
      exactly those whose exam name is longer than one character and contains
      the filter; each carries the page's normalised semester. */
  function ScrapeOverview(page: Page, exam: string): (r: Result<seq<ExamRecord>, ScrapeError>)
    ensures var read := ReadRows(page.rows, PageSemester(page));
      r.Success? <==> read.Success? && (exam == "" || |read.value| > 0)
    ensures ReadRows(page.rows, PageSemester(page)).Success? && r.Failure? ==> r.error == NoExamColumn
    ensures r.Success? ==> forall i :: 0 <= i < |r.value| ==>
      && LongExam(r.value[i]) && SingleLine(r.value[i])
      && r.value[i].semester == PageSemester(page)
      && Contains(r.value[i].exam, exam)
    ensures r.Success? ==> SelectsFrom(r.value, CollapseAll(ReadRows(page.rows, PageSemester(page)).value), exam)
  {
    var semester := PageSemester(page);
    var read := ReadRows(page.rows, semester);
    if read.Success? && |read.value| == 0 && exam != "" then Failure(NoExamColumn)
    else ScrapeRows(page.rows, semester, exam)
  }

  /** Without a filter `scrape_overview` never reaches the empty-table
      failure: it is the plain read, cleanup and filter. */
  lemma ScrapeOverviewUnfiltered(page: Page)
    ensures ScrapeOverview(page, "") == ScrapeRows(page.rows, PageSemester(page), "")
  {
  }

  /** The table rows of a page with semester `semester` read, cleaned up and
      filtered: the records with newlines collapsed, in order, keeping exactly
      those with a long exam name containing the filter. */
  function ScrapeRows(rows: seq<seq<Cell>>, semester: string, exam: string): (r: Result<seq<ExamRecord>, ScrapeError>)
    ensures r.Success? <==> ReadRows(rows, semester).Success?
    ensures r.Failure? ==> r.error == MissingCell
    ensures r.Success? ==> forall i :: 0 <= i < |r.value| ==>
      && LongExam(r.value[i]) && SingleLine(r.value[i])
      && r.value[i].semester == semester
      && Contains(r.value[i].exam, exam)
    ensures r.Success? ==> SelectsFrom(r.value, CollapseAll(ReadRows(rows, semester).value), exam)
  {
    match ReadRows(rows, semester)
    case Failure(e) => Failure(e)
    case Success(raw) =>
      CleanedRows(raw, semester, exam);
      CleanedRowsComplete(raw, exam);
      Success(FilterExam(Cleanup(raw), exam))
  }

  /** Each row left after cleanup and the filter has a long single-line exam
      name mentioning `exam` and keeps the semester all rows were read with. */
  lemma CleanedRows(raw: seq<ExamRecord>, semester: string, exam: string)
    requires forall i :: 0 <= i < |raw| ==> raw[i].semester == semester
    ensures var r := FilterExam(Cleanup(raw), exam);
      forall i :: 0 <= i < |r| ==>
        && LongExam(r[i]) && SingleLine(r[i])
        && r[i].semester == semester
        && Contains(r[i].exam, exam)
  {
    var cleaned := Cleanup(raw);
    var r := FilterExam(cleaned, exam);
    FilterExamSpec(cleaned, exam);
    CleanupSemester(raw, semester);
    SubsequenceKeeps(r, cleaned, (x: ExamRecord) => LongExam(x) && SingleLine(x) && x.semester == semester);
  }

  /** Cleanup followed by the filter selects, in order, from the collapsed
      rows, and loses none that is long and mentions `exam`. */
  lemma CleanedRowsComplete(raw: seq<ExamRecord>, exam: string)
    ensures var r := FilterExam(Cleanup(raw), exam);
      SelectsFrom(r, CollapseAll(raw), exam)
  {
    var cleaned := Cleanup(raw);
    FilterExamSpec(cleaned, exam);
    SubsequenceTrans(FilterExam(cleaned, exam), cleaned, CollapseAll(raw));
  }

  // ---------------------------------------------------------------------------
  // scrape_all_overviews
  // ---------------------------------------------------------------------------

  /** The overviews of the listed URLs, each page read, cleaned up and
      filtered with `exam`, concatenated in listing order; the first page
      that cannot be read aborts. */
  function ScrapeEach(urls: seq<string>, fetch: string -> Page, exam: string): (r: Result<seq<ExamRecord>, ScrapeError>)
    ensures r.Success? <==> forall i :: 0 <= i < |urls| ==> Readable(fetch(urls[i]))
    ensures r.Success? ==> forall i :: 0 <= i < |r.value| ==> CleanRow(exam, r.value[i])
    ensures r.Failure? ==> r.error == MissingCell
    decreases |urls|
  {
    if |urls| == 0 then Success([])
    else
      var page := fetch(urls[0]);
      ReadableSplit(urls, fetch);
      var head := ScrapePage(page, exam);
      var tail := ScrapeEach(urls[1..], fetch, exam);
      if head.Failure? then head
      else if tail.Failure? then tail
      else
        CleanConcat(exam, head.value, tail.value);
        Success(head.value + tail.value)
  }

  /** One listed page read, cleaned up and filtered: its rows are drawn, in
      order, from the page's records with newlines collapsed, and none that is
      long and mentions `exam` is lost. */
  function ScrapePage(page: Page, exam: string): (r: Result<seq<ExamRecord>, ScrapeError>)
    ensures r.Success? <==> Readable(page)
    ensures r.Success? ==> forall i :: 0 <= i < |r.value| ==> CleanRow(exam, r.value[i])
    ensures r.Failure? ==> r.error == MissingCell
    ensures r.Success? ==> SelectsFrom(r.value, CollapseAll(ReadRows(page.rows, PageSemester(page)).value), exam)
  {
    ScrapeRows(page.rows, PageSemester(page), exam)
  }

  /** No listed page gives no rows; one listed page gives that page's rows. */
  lemma ScrapeEachSingle(u: string, fetch: string -> Page, exam: string)
    ensures ScrapeEach([], fetch, exam) == Success([])
    ensures ScrapeEach([u], fetch, exam) == ScrapePage(fetch(u), exam)
  {
    assert [u][1..] == [];
    var head := ScrapePage(fetch(u), exam);
    if head.Success? {
      assert head.value + [] == head.value;
    }
  }

  /** A non-empty listing scrapes as its first page followed by the rest. */
  lemma ScrapeEachCons(urls: seq<string>, fetch: string -> Page, exam: string)
    requires |urls| > 0
    ensures var r, head, tail := ScrapeEach(urls, fetch, exam), ScrapePage(fetch(urls[0]), exam), ScrapeEach(urls[1..], fetch, exam);
      && (r.Success? <==> head.Success? && tail.Success?)
      && (r.Success? ==> r.value == head.value + tail.value)
  {
  }

  /** Scraping two listings one after the other succeeds exactly when each
      does, and gives the rows of the first followed by those of the second. */
  lemma {:induction false} ScrapeEachAppend(u: seq<string>, v: seq<string>, fetch: string -> Page, exam: string)
    ensures ScrapeEach(u + v, fetch, exam).Success?
        <==> ScrapeEach(u, fetch, exam).Success? && ScrapeEach(v, fetch, exam).Success?
    ensures ScrapeEach(u + v, fetch, exam).Success? ==>
      ScrapeEach(u + v, fetch, exam).value == ScrapeEach(u, fetch, exam).value + ScrapeEach(v, fetch, exam).value
    decreases |u|
  {
    if |u| == 0 {
      assert u + v == v;
    } else {
      var w := u + v;
      assert w[0] == u[0];
      assert w[1..] == u[1..] + v;
      ScrapeEachAppend(u[1..], v, fetch, exam);
      ScrapeEachCons(u, fetch, exam);
      ScrapeEachCons(w, fetch, exam);
      var head := ScrapePage(fetch(u[0]), exam);
      var a, b := ScrapeEach(u[1..], fetch, exam), ScrapeEach(v, fetch, exam);
      if head.Success? && a.Success? && b.Success? {
        ConcatAssoc(head.value, a.value, b.value);
      }
    }
  }

  /** Every listed page is readable exactly when the first one is and every
      later one is. */
  lemma ReadableSplit(urls: seq<string>, fetch: string -> Page)
    requires |urls| > 0
    ensures (forall i :: 0 <= i < |urls| ==> Readable(fetch(urls[i])))
        <==> Readable(fetch(urls[0])) && forall i :: 0 <= i < |urls[1..]| ==> Readable(fetch(urls[1..][i]))
  {
    AllCons(urls, u => Readable(fetch(u)));
  }

  /** The rows of a page can be read: no data row lacks a cell. */
  predicate Readable(page: Page)
  {
    forall i :: 0 <= i < |page.rows| ==> Skipped(page.rows[i]) || |page.rows[i]| >= 3
  }

  /** A row as the scrapers deliver it: long exam name mentioning `exam`, no
      newlines. */
  predicate CleanRow(exam: string, x: ExamRecord)
  {
    LongExam(x) && SingleLine(x) && Contains(x.exam, exam)
  }

  lemma CleanConcat(exam: string, a: seq<ExamRecord>, b: seq<ExamRecord>)
    requires forall i :: 0 <= i < |a| ==> CleanRow(exam, a[i])
    requires forall i :: 0 <= i < |b| ==> CleanRow(exam, b[i])
    ensures forall i :: 0 <= i < |a + b| ==> CleanRow(exam, (a + b)[i])
  {
    assert forall i :: |a| <= i < |a + b| ==> (a + b)[i] == b[i - |a|];
  }

  /** The URLs of a listing, in its order. */
  function Urls(d: Listing): (r: seq<string>)
    ensures |r| == |d| && forall i :: 0 <= i < |d| ==> r[i] == d[i].1
  {
    seq(|d|, i requires 0 <= i < |d| => d[i].1)
  }

  /** `scrape_all_overviews`: the source listing of the faculty page (the
      original always lists the default page, whatever URL it is given), every
      listed overview scraped without filter (`ScrapeOverviewUnfiltered`),
      then the exam filter, applied here for the first time, and the length
      guard, applied once more, to the concatenation. `fetch` stands for
      downloading and parsing a page. The result exists exactly when every
      listed page can be read, and every row has a long, single-line exam
      name that mentions the filter. The rows
      are drawn, in order, from the unfiltered concatenation of the listed
      pages, and none of those that is long and mentions the filter is lost. */
  function ScrapeAllOverviews(fetch: string -> Page, exam: string): (r: Result<seq<ExamRecord>, ScrapeError>)
    ensures var urls := Urls(ListSources(NotenUrl, fetch(NotenUrl)));
      r.Success? <==> forall i :: 0 <= i < |urls| ==> Readable(fetch(urls[i]))
    ensures r.Success? ==> forall i :: 0 <= i < |r.value| ==> CleanRow(exam, r.value[i])
    ensures r.Success? ==>
      var all := ScrapeEach(Urls(ListSources(NotenUrl, fetch(NotenUrl))), fetch, "");
      all.Success? && SelectsFrom(r.value, all.value, exam)
  {
    var each := ScrapeEach(Urls(ListSources(NotenUrl, fetch(NotenUrl))), fetch, "");
    if each.Failure? then Failure(each.error)
    else
      CleanSingleLine(each.value);
      Success(Refilter(each.value, exam))
  }

  lemma CleanSingleLine(rows: seq<ExamRecord>)
    requires forall i :: 0 <= i < |rows| ==> CleanRow("", rows[i])
    ensures forall i :: 0 <= i < |rows| ==> SingleLine(rows[i])
  {
  }

  /** The aggregator's pass over the concatenation: the exam filter, applied
      for the first time, then the length guard, applied once more. Every row
      kept is long and mentions the exam, and rows without newlines stay so. */
  function Refilter(all: seq<ExamRecord>, exam: string): (r: seq<ExamRecord>)
    requires forall i :: 0 <= i < |all| ==> SingleLine(all[i])
    ensures forall i :: 0 <= i < |r| ==> CleanRow(exam, r[i])
    ensures SelectsFrom(r, all, exam)
  {
    RefilterClean(all, exam);
    RefilterSelects(all, exam);
    Where(FilterExam(all, exam), LongExam)
  }

  /** After the filter and the guard every row is clean. */
  lemma RefilterClean(all: seq<ExamRecord>, exam: string)
    requires forall i :: 0 <= i < |all| ==> SingleLine(all[i])
    ensures forall i :: 0 <= i < |Where(FilterExam(all, exam), LongExam)| ==>
      CleanRow(exam, Where(FilterExam(all, exam), LongExam)[i])
  {
    var kept := FilterExam(all, exam);
    FilterExamSpec(all, exam);
    SubsequenceKeeps(kept, all, SingleLine);
    WhereSpec(kept, LongExam);
    SubsequenceKeeps(Where(kept, LongExam), kept, (x: ExamRecord) => SingleLine(x) && Contains(x.exam, exam));
  }

  /** The filter and the guard select in order and lose no long matching row. */
  lemma RefilterSelects(all: seq<ExamRecord>, exam: string)
    ensures SelectsFrom(Where(FilterExam(all, exam), LongExam), all, exam)
  {
    var kept := FilterExam(all, exam);
    FilterExamSpec(all, exam);
    WhereSpec(kept, LongExam);
    SubsequenceTrans(Where(kept, LongExam), kept, all);
  }

  /** Filtering after concatenation gives what filtering each page gives, and
      the final length guard removes nothing. */
  lemma {:induction false} ScrapeEachFilter(urls: seq<string>, fetch: string -> Page, exam: string)
    ensures ScrapeEach(urls, fetch, "").Success? <==> ScrapeEach(urls, fetch, exam).Success?
    ensures ScrapeEach(urls, fetch, "").Success? ==>
      && FilterExam(ScrapeEach(urls, fetch, "").value, exam) == ScrapeEach(urls, fetch, exam).value
      && forall i :: 0 <= i < |ScrapeEach(urls, fetch, "").value| ==> LongExam(ScrapeEach(urls, fetch, "").value[i])
    decreases |urls|
  {
    if |urls| > 0 {
      var page := fetch(urls[0]);
      ScrapeEachFilter(urls[1..], fetch, exam);
      if ScrapeEach(urls, fetch, "").Success? {
        var rows := ScrapePage(page, "").value;
        var more := ScrapeEach(urls[1..], fetch, "").value;
        FilterExamConcat(rows, more, exam);
        assert FilterExam(rows, exam) == ScrapePage(page, exam).value by {
          var cleaned := Cleanup(ReadRows(page.rows, PageSemester(page)).value);
          assert rows == cleaned;
        }
      }
    }
  }

  /** The aggregator's result is the concatenation, in listing order, of each
      listed page read, cleaned up and filtered: filtering the concatenation
      once is filtering each page, and the repeated length guard changes
      nothing. (Calling `scrape_overview` with
      the filter on each page instead would fail on a page without data rows.) */
  lemma ScrapeAllOverviewsPerPage(fetch: string -> Page, exam: string)
    ensures ScrapeAllOverviews(fetch, exam)
         == ScrapeEach(Urls(ListSources(NotenUrl, fetch(NotenUrl))), fetch, exam)
  {
    var urls := Urls(ListSources(NotenUrl, fetch(NotenUrl)));
    ScrapeEachFilter(urls, fetch, exam);
    if ScrapeEach(urls, fetch, "").Success? {
      var all := ScrapeEach(urls, fetch, "").value;
      FilterExamSpec(all, exam);
      SubsequenceKeeps(FilterExam(all, exam), all, LongExam);
      WhereAll(FilterExam(all, exam), LongExam);
    }
  }
}

=== FILE: pages.dfy ===
/** The parts of a fetched faculty page that the scraper reads, as plain data.
    Fetching and HTML parsing happen outside the model: the page arrives
    already reduced to its first `h4` and `h3` headings, the first link of each
    paragraph, and the cells of every table-body row in document order. */
module Pages {
  import opened Wrappers

  /** A heading element: its markup (what `str(tag)` shows) and its text. */
  datatype Heading = Heading(markup: string, text: string)

  /** The first `<a>` of a paragraph: its `href` and its text. */
  datatype Anchor = Anchor(href: string, text: string)

  /** One `<td>`: its markup, its text, and the `href` of its first link, if any. */
  datatype Cell = Cell(markup: string, text: string, link: Option<string>)

  datatype Page = Page(
    h4: Option<Heading>,
    h3: Option<Heading>,
    paragraphs: seq<Option<Anchor>>,
    rows: seq<seq<Cell>>)
}

=== FILE: pdf_extract.dfy ===
/** What `_extract_pdf` (`hu_wiwi_grades.py` lines 137-166) does once tabula
    has produced a table: the host guard, the merge of the first row into one
    grade line, and the rejection of tables with too many columns. */
module PdfExtract {
  import opened Wrappers
  import opened Text

  /** A detail URL that does not mention this host is not a document link. */
  const HostMarker := "hu-berlin.de"
  /** Columns allowed after the merged column is added; more means the
      extraction picked up noise. */
  const MaxColumns := 14

  /** The first row as one line: ";" appended to the examiner cell, then all
      cells joined with single spaces. */
  function MergeRow(cells: seq<string>): (r: string)
    requires |cells| > 0
    ensures |cells| == 1 ==> r == cells[0] + ";"
    ensures |cells| > 1 ==> r == cells[0] + "; " + Join(cells[1..], " ")
  {
    var merged := Join([cells[0] + ";"] + cells[1..], " ");
    if |cells| == 1 then merged
    else
      JoinCons(cells[0] + ";", cells[1..], " ");
      assert cells[0] + ";" + " " == cells[0] + "; ";
      merged
  }

  /** `.str.replace(' / ', '/').str.replace('; ', ';')`. A line with
      neither separator comes back unchanged. */
  function TidySeparators(line: string): (r: string)
    ensures !Contains(line, " / ") && !Contains(line, "; ") ==> r == line
  {
    TidyAbsent(line);
    ReplaceAll(ReplaceAll(line, " / ", "/"), "; ", ";")
  }

  /** Both rewrites of `TidySeparators` leave a line without their patterns
      alone. */
  lemma TidyAbsent(line: string)
    ensures !Contains(line, " / ") && !Contains(line, "; ") ==>
      ReplaceAll(ReplaceAll(line, " / ", "/"), "; ", ";") == line
  {
    if !Contains(line, " / ") && !Contains(line, "; ") {
      ReplaceAbsent(line, " / ", "/");
      ReplaceAbsent(line, "; ", ";");
    }
  }

  /** `_extract_pdf(url)`. `firstRow` is the first data row of the table read
      from the PDF's first page after the index repair, after dropping every
      row whose examiner cell is missing and then every column with a missing
      cell in any remaining row; it holds one string per remaining column,
      examiner column first, and is `None` when reading the PDF raised or no
      row survived. The result is a line exactly when the URL names the
      faculty host, a row is there, and the row plus the merged column fits in
      `MaxColumns` columns. */
  function ExtractPdf(url: string, firstRow: Option<seq<string>>): (r: Option<string>)
    ensures !Contains(url, HostMarker) ==> r == None
    ensures r.Some? <==> && Contains(url, HostMarker) && firstRow.Some?
                         && 0 < |firstRow.value| && |firstRow.value| + 1 <= MaxColumns
  {
    if !Contains(url, HostMarker) then None
    else match firstRow
      case None => None
      case Some(cells) =>
        if |cells| == 0 then None
        else if |cells| + 1 > MaxColumns then None
        else Some(TidySeparators(MergeRow(cells)))
  }
}

=== FILE: pipeline.dfy ===
/** The public entry points that chain the stages together: `_pull_grades`
    and `get_grading` (`hu_wiwi_grades.py` lines 168-178 and 191-235), and
    what a grade line goes through from the PDF to the analysis rows. */
module Pipeline {
  import opened Wrappers
  import opened Text
  import opened Numerals
  import opened Pages
  import opened Sources
  import opened Overview
  import opened PdfExtract
  import opened GradeSplit
  import opened Analysis

  /** `_pull_grades`: every overview row next to the grade line extracted
      from its detail URL. `tableOf(url)` stands for the first table row that
      tabula reads from the PDF at `url`, which the model cannot compute. */
  function PullGrades(rows: seq<ExamRecord>, tableOf: string -> Option<seq<string>>): (r: seq<(ExamRecord, Option<string>)>)
    ensures |r| == |rows|
    ensures forall i :: 0 <= i < |rows| ==> r[i].0 == rows[i]
    ensures forall i :: 0 <= i < |rows| ==> r[i].1 == ExtractPdf(rows[i].url, tableOf(rows[i].url))
    ensures forall i :: 0 <= i < |rows| ==>
      (r[i].1.Some? <==> && Contains(rows[i].url, HostMarker) && tableOf(rows[i].url).Some?
                         && 0 < |tableOf(rows[i].url).value| && |tableOf(rows[i].url).value| < MaxColumns)
  {
    seq(|rows|, i requires 0 <= i < |rows| => (rows[i], ExtractPdf(rows[i].url, tableOf(rows[i].url))))
  }

  /** Why `get_grading` produced no table. */
  datatype GradingError = ScrapeFailed(scrape: ScrapeError) | SplitFailed(split: SplitError)

  /** The overview `get_grading` starts from: the current grading page, or
      every listed page. Either way every row has a long, single-line exam
      name that mentions the filter. */
  function GradingOverview(onlyCurrent: bool, exam: string, fetch: string -> Page): (r: Result<seq<ExamRecord>, ScrapeError>)
    ensures r.Success? ==> forall i :: 0 <= i < |r.value| ==> CleanRow(exam, r.value[i])
  {
    if onlyCurrent then ScrapeOverview(fetch(NotenUrl), exam) else ScrapeAllOverviews(fetch, exam)
  }

  /** Overview row `row` with the grade line pulled from its detail URL, split. */
  function RowGrading(row: ExamRecord, tableOf: string -> Option<seq<string>>): Result<GradingRecord, SplitError>
  {
    SplitRow((row, ExtractPdf(row.url, tableOf(row.url))))
  }

  /** `get_grading(exam, only_current_semester)`: scrape the overview, pull
      each row's grade line, split the lines. The result exists exactly when
      the overview was scraped, some row's PDF gave a grade line and every
      such line splits; record i is then overview row i with the fields split
      from its own line, and every record mentions the requested exam. */
  function GetGrading(onlyCurrent: bool, exam: string, fetch: string -> Page, tableOf: string -> Option<seq<string>>)
    : (r: Result<seq<GradingRecord>, GradingError>)
    ensures var o := GradingOverview(onlyCurrent, exam, fetch);
      r.Success? <==> && o.Success?
                      && (exists i :: 0 <= i < |o.value| && ExtractPdf(o.value[i].url, tableOf(o.value[i].url)).Some?)
                      && (forall i :: 0 <= i < |o.value| ==> RowGrading(o.value[i], tableOf).Success?)
    ensures r.Success? ==> var rows := GradingOverview(onlyCurrent, exam, fetch).value;
      && |r.value| == |rows|
      && forall i :: 0 <= i < |rows| ==> Success(r.value[i]) == RowGrading(rows[i], tableOf)
    ensures r.Success? ==> forall i :: 0 <= i < |r.value| ==>
      |r.value[i].counts| == 11 && Contains(r.value[i].overview.exam, exam)
  {
    var o := GradingOverview(onlyCurrent, exam, fetch);
    GradedMentions(o, tableOf, exam);
    GradeRows(o, tableOf)
  }

  /** Split records keep their overview rows, so they mention what the rows
      mention. */
  lemma GradedMentions(o: Result<seq<ExamRecord>, ScrapeError>, tableOf: string -> Option<seq<string>>, exam: string)
    requires o.Success? ==> forall i :: 0 <= i < |o.value| ==> CleanRow(exam, o.value[i])
    ensures GradeRows(o, tableOf).Success? ==> var v := GradeRows(o, tableOf).value;
      forall i :: 0 <= i < |v| ==> |v[i].counts| == 11 && Contains(v[i].overview.exam, exam)
  {
    if GradeRows(o, tableOf).Success? {
      var v := GradeRows(o, tableOf).value;
      forall i | 0 <= i < |v|
        ensures |v[i].counts| == 11 && Contains(v[i].overview.exam, exam)
      {
        assert v[i].overview == o.value[i] && CleanRow(exam, o.value[i]);
      }
    }
  }

  /** The overview's rows with their grade lines pulled and split: exactly
      when the overview exists, some row has a grade line and every line
      splits; then record i is row i's split. */
  function GradeRows(overview: Result<seq<ExamRecord>, ScrapeError>, tableOf: string -> Option<seq<string>>)
    : (r: Result<seq<GradingRecord>, GradingError>)
    ensures r.Success? <==> && overview.Success?
                            && (exists i :: 0 <= i < |overview.value| && ExtractPdf(overview.value[i].url, tableOf(overview.value[i].url)).Some?)
                            && (forall i :: 0 <= i < |overview.value| ==> RowGrading(overview.value[i], tableOf).Success?)
    ensures r.Success? ==> |r.value| == |overview.value|
    ensures r.Success? ==> forall i :: 0 <= i < |overview.value| ==>
      && Success(r.value[i]) == RowGrading(overview.value[i], tableOf)
      && r.value[i].overview == overview.value[i] && |r.value[i].counts| == 11
  {
    match overview
    case Failure(e) => Failure(ScrapeFailed(e))
    case Success(rows) =>
      var split := SplitTable(PullGrades(rows, tableOf));
      SplitPulled(rows, tableOf);
      if split.Failure? then Failure(SplitFailed(split.error)) else Success(split.value)
  }

  /** The pulled table splits exactly when some row's PDF gives a grade line
      and every row's `RowGrading` succeeds; record i is then `RowGrading` of
      row i. */
  lemma SplitPulled(rows: seq<ExamRecord>, tableOf: string -> Option<seq<string>>)
    ensures var s := SplitTable(PullGrades(rows, tableOf));
      s.Success? <==> && (exists i :: 0 <= i < |rows| && ExtractPdf(rows[i].url, tableOf(rows[i].url)).Some?)
                      && (forall i :: 0 <= i < |rows| ==> RowGrading(rows[i], tableOf).Success?)
    ensures var s := SplitTable(PullGrades(rows, tableOf));
      s.Success? ==> && |s.value| == |rows|
                     && forall i :: 0 <= i < |rows| ==>
                       && Success(s.value[i]) == RowGrading(rows[i], tableOf)
                       && s.value[i].overview == rows[i] && |s.value[i].counts| == 11
  {
    var p := PullGrades(rows, tableOf);
    PulledLines(rows, tableOf);
    if SplitTable(p).Success? {
      var v := SplitTable(p).value;
      forall i | 0 <= i < |rows|
        ensures Success(v[i]) == RowGrading(rows[i], tableOf)
      {
        assert Success(v[i]) == SplitRow(p[i]);
      }
    }
  }

  /** Row i of the pulled table has a grade line exactly when row i's PDF
      gives one, and splits as `RowGrading` of overview row i. */
  lemma PulledLines(rows: seq<ExamRecord>, tableOf: string -> Option<seq<string>>)
    ensures var p := PullGrades(rows, tableOf);
      && |p| == |rows|
      && ((exists i :: 0 <= i < |p| && p[i].1.Some?)
          <==> exists i :: 0 <= i < |rows| && ExtractPdf(rows[i].url, tableOf(rows[i].url)).Some?)
      && (forall i :: 0 <= i < |rows| ==> SplitRow(p[i]) == RowGrading(rows[i], tableOf) && p[i].0 == rows[i])
  {
    var p := PullGrades(rows, tableOf);
    assert forall i :: 0 <= i < |rows| ==> p[i] == (rows[i], ExtractPdf(rows[i].url, tableOf(rows[i].url)));
  }

  // ---------------------------------------------------------------------------
  // One grade line end to end
  // ---------------------------------------------------------------------------

  /** Tidying removes the space after the one ";" and changes nothing else
      when nothing holds "/". */
  lemma TidyShape(first: string, rest: string)
    requires ';' !in first && ';' !in rest && '/' !in first && '/' !in rest
    ensures TidySeparators(first + "; " + rest) == first + ";" + rest
  {
    var line := first + "; " + rest;
    assert '/' !in line;
    MissingCharExcludes(line, " / ", 1);
    ReplaceAbsent(line, " / ", "/");
    forall i | 0 <= i < |first|
      ensures !("; " <= (first + "; " + rest)[i..])
    {
      assert (first + "; " + rest)[i] == first[i];
    }
    ReplaceLeftmost(first, rest, "; ", ";");
    MissingCharExcludes(rest, "; ", 0);
    ReplaceAbsent(rest, "; ", ";");
  }

  /** The PDF row of one examination, "<round> <examiner>" followed by the
      participant count and the eleven bucket counts, becomes the grade line
      of those fields: the row fills the column limit exactly. */
  lemma ExtractGradeLine(url: string, round: string, examiner: string, tokens: seq<string>)
    requires Contains(url, HostMarker)
    requires Word(round) && '/' !in round
    requires ';' !in examiner && '/' !in examiner
    requires |tokens| == 12 && forall k :: 0 <= k < 12 ==> Word(tokens[k]) && '/' !in tokens[k]
    ensures ExtractPdf(url, Some([round + " " + examiner] + tokens)) == Some(GradeLine(round, examiner, tokens))
  {
    var first := round + " " + examiner;
    assert ([first] + tokens)[1..] == tokens;
    JoinAvoids(tokens, " ", ';');
    JoinAvoids(tokens, " ", '/');
    TidyShape(first, Join(tokens, " "));
  }

  /** A grade line pulled from the PDF row of one examination splits back
      into the round, the examiner and the counts of that row. */
  lemma PullThenSplit(row: ExamRecord, round: string, examiner: string, tokens: seq<string>)
    requires Contains(row.url, HostMarker)
    requires Word(round) && '/' !in round
    requires ';' !in examiner && '/' !in examiner
    requires |tokens| == 12 && forall k :: 0 <= k < 12 ==> Word(tokens[k]) && '/' !in tokens[k]
    ensures var line := ExtractPdf(row.url, Some([round + " " + examiner] + tokens));
      && line.Some?
      && SplitGrades(line.value)
         == Success(GradeFields(round, examiner, DashToZero(tokens[0]),
                                CountFields(tokens)))
  {
    ExtractGradeLine(row.url, round, examiner, tokens);
    var line := GradeLine(round, examiner, tokens);
    assert "" + line + "" == line;
    assert AllSpace("");
    SplitGradesOfLine("", round, examiner, tokens, "");
  }

  /** From grade line to analysis rows: when every bucket field is a digit
      string or "-", the record split from the line expands, and the k-th
      grade occurs as often as the k-th bucket field says ("-" meaning none). */
  lemma SplitThenExpand(row: ExamRecord, round: string, examiner: string, tokens: seq<string>,
                        template: GradingRecord -> StudentGrade, k: nat)
    returns (rec: GradingRecord)
    requires Word(round) && ';' !in examiner
    requires |tokens| == 12 && forall j :: 0 <= j < 12 ==> Word(tokens[j])
    requires forall j :: 1 <= j < 12 ==> tokens[j] == "-" || AllDigits(tokens[j])
    requires k < 11
    ensures ExpandAllWith([rec], template).Success?
    ensures multiset(ExpandAllWith([rec], template).value)[template(rec).(grade := Grades[k])]
         == ValueOf(DashToZero(tokens[k + 1]))
    ensures SplitTable([(row, Some(GradeLine(round, examiner, tokens)))]) == Success([rec])
  {
    rec := LineRecord(row, round, examiner, tokens);
    RecordCounts(rec, tokens);
    ExpandRecordContents(rec, template, k);
  }

  /** The record split from a one-row table holding a grade line. */
  lemma LineRecord(row: ExamRecord, round: string, examiner: string, tokens: seq<string>) returns (rec: GradingRecord)
    requires Word(round) && ';' !in examiner
    requires |tokens| == 12 && forall j :: 0 <= j < 12 ==> Word(tokens[j])
    ensures SplitTable([(row, Some(GradeLine(round, examiner, tokens)))]) == Success([rec])
    ensures rec.overview == row && rec.round == round && rec.examiner == examiner
    ensures |rec.counts| == 11 && forall j :: 0 <= j < 11 ==> rec.counts[j] == Text(DashToZero(tokens[j + 1]))
  {
    var line := GradeLine(round, examiner, tokens);
    var f := SplitGradeLine(round, examiner, tokens);
    SplitTableSingle(row, line);
    rec := FromFields(row, f);
    forall j | 0 <= j < 11
      ensures rec.counts[j] == Text(DashToZero(tokens[j + 1]))
    {
      assert rec.counts[j] == Text(f.counts[j]);
    }
  }

  /** Counts split from digit strings or "-" are all readable. */
  lemma RecordCounts(rec: GradingRecord, tokens: seq<string>)
    requires |tokens| == 12 && forall j :: 1 <= j < 12 ==> tokens[j] == "-" || (|tokens[j]| > 0 && AllDigits(tokens[j]))
    requires |rec.counts| == 11 && forall j :: 0 <= j < 11 ==> rec.counts[j] == Text(DashToZero(tokens[j + 1]))
    ensures Expandable(rec)
    ensures forall j :: 0 <= j < 11 ==> CountValue(rec.counts[j]) == Some(ValueOf(DashToZero(tokens[j + 1])))
  {
    forall j | 0 <= j < 11
      ensures CountValue(rec.counts[j]) == Some(ValueOf(DashToZero(tokens[j + 1])))
    {
      if tokens[j + 1] == "-" {
        assert DashToZero(tokens[j + 1]) == "0" && AllDigits("0");
      }
    }
  }
}

=== FILE: semesters.dfy ===
/** How a page's semester label is found and normalised
    (`hu_wiwi_grades.py`, lines 22-27, 85-91). */
module Semesters {
  import opened Wrappers
  import opened Text
  import opened Pages

  /** Label used by the source lister when no heading names a semester. */
  const ListingFallback := "current"
  /** Label used by the overview scraper when no heading names a semester. */
  const OverviewFallback := "unidentified"

  /** The text of the page's first `h4` when that element's markup mentions
      "semester", else that of its first `h3` under the same test, else
      `fallback`. A missing element prints as "None", which never mentions it. */
  function HeadingLabel(page: Page, fallback: string): (r: string)
    ensures page.h4.Some? && Contains(page.h4.value.markup, "semester") ==> r == page.h4.value.text
    ensures (&& !(page.h4.Some? && Contains(page.h4.value.markup, "semester"))
             && page.h3.Some? && Contains(page.h3.value.markup, "semester")) ==> r == page.h3.value.text
    ensures (&& !(page.h4.Some? && Contains(page.h4.value.markup, "semester"))
             && !(page.h3.Some? && Contains(page.h3.value.markup, "semester"))) ==> r == fallback
  {
    if page.h4.Some? && Contains(page.h4.value.markup, "semester") then page.h4.value.text
    else if page.h3.Some? && Contains(page.h3.value.markup, "semester") then page.h3.value.text
    else fallback
  }

  /** A label is normalised when it uses neither long season name. */
  predicate IsNormalized(name: string)
  {
    !Contains(name, "Sommersemester") && !Contains(name, "Wintersemester")
  }

  /** `name.replace("Sommersemester", "SoSe").replace("Wintersemester", "WiSe")`.
      The result never uses a long season name, and a label that uses neither
      comes back unchanged. */
  function Normalize(name: string): (r: string)
    ensures IsNormalized(r)
    ensures IsNormalized(name) ==> r == name
  {
    var summer := ReplaceAll(name, "Sommersemester", "SoSe");
    var both := ReplaceAll(summer, "Wintersemester", "WiSe");
    SummerGone(name);
    SummerStaysGone(summer);
    WinterGone(summer);
    KeepsUnchanged(name, "Sommersemester", "SoSe");
    KeepsUnchanged(summer, "Wintersemester", "WiSe");
    both
  }

  lemma KeepsUnchanged(s: string, pat: string, rep: string)
    requires |pat| > 0
    ensures !Contains(s, pat) ==> ReplaceAll(s, pat, rep) == s
  {
    if !Contains(s, pat) {
      ReplaceAbsent(s, pat, rep);
    }
  }

  /** The suffix `rep[k..]` and `p` differ at position `j`, so neither is a
      prefix of the other. */
  lemma Clash(rep: string, p: string, k: nat, j: nat)
    requires k < |rep| && k + j < |rep| && j < |p| && rep[k + j] != p[j]
    ensures !(rep[k..] <= p) && !(p <= rep[k..])
  {
    assert rep[k..][j] == rep[k + j];
  }

  /** Replacing "Sommersemester" by "SoSe" leaves no "Sommersemester". */
  lemma SummerGone(s: string)
    ensures !Contains(ReplaceAll(s, "Sommersemester", "SoSe"), "Sommersemester")
  {
    var rep, p := "SoSe", "Sommersemester";
    Clash(rep, p, 0, 2);
    Clash(rep, p, 1, 0);
    Clash(rep, p, 2, 1);
    Clash(rep, p, 3, 0);
    assert rep[0] !in p[1..];
    ReplaceExcludes(s, p, rep, p);
  }

  /** Replacing "Wintersemester" by "WiSe" leaves no "Wintersemester". */
  lemma WinterGone(s: string)
    ensures !Contains(ReplaceAll(s, "Wintersemester", "WiSe"), "Wintersemester")
  {
    var rep, p := "WiSe", "Wintersemester";
    Clash(rep, p, 0, 2);
    Clash(rep, p, 1, 0);
    Clash(rep, p, 2, 0);
    Clash(rep, p, 3, 0);
    assert rep[0] !in p[1..];
    ReplaceExcludes(s, p, rep, p);
  }

  /** Replacing "Wintersemester" by "WiSe" cannot create a "Sommersemester". */
  lemma SummerStaysGone(s: string)
    requires !Contains(s, "Sommersemester")
    ensures !Contains(ReplaceAll(s, "Wintersemester", "WiSe"), "Sommersemester")
  {
    var rep, p := "WiSe", "Sommersemester";
    Clash(rep, p, 0, 0);
    Clash(rep, p, 1, 0);
    Clash(rep, p, 2, 1);
    Clash(rep, p, 3, 0);
    assert rep[0] !in p[1..];
    ReplaceExcludes(s, "Wintersemester", rep, p);
  }

  /** Normalising twice is normalising once. */
  lemma NormalizeIdempotent(name: string)
    ensures Normalize(Normalize(name)) == Normalize(name)
  {
  }

  /** A long summer label becomes the short one; the year part is kept. */
  lemma NormalizeSummerTerm(year: string)
    requires 'S' !in year && 'W' !in year
    ensures Normalize("Sommersemester" + year) == "SoSe" + year
  {
    var long := "Sommersemester" + year;
    assert long == "" + "Sommersemester" + year;
    ReplaceLeftmost("", year, "Sommersemester", "SoSe");
    MissingCharExcludes(year, "Sommersemester", 0);
    ReplaceAbsent(year, "Sommersemester", "SoSe");
    var summer := ReplaceAll(long, "Sommersemester", "SoSe");
    assert summer == "SoSe" + year;
    MissingCharExcludes(summer, "Wintersemester", 0);
    ReplaceAbsent(summer, "Wintersemester", "WiSe");
  }

  /** A long winter label becomes the short one; the year part is kept. */
  lemma NormalizeWinterTerm(year: string)
    requires 'S' !in year && 'W' !in year
    ensures Normalize("Wintersemester" + year) == "WiSe" + year
  {
    var long := "Wintersemester" + year;
    MissingCharExcludes(long, "Sommersemester", 0);
    ReplaceAbsent(long, "Sommersemester", "SoSe");
    assert long == "" + "Wintersemester" + year;
    ReplaceLeftmost("", year, "Wintersemester", "WiSe");
    MissingCharExcludes(year, "Wintersemester", 0);
    ReplaceAbsent(year, "Wintersemester", "WiSe");
  }

}

=== FILE: sources.dfy ===
/** The source lister (`list_sources`, `hu_wiwi_grades.py` lines 7-41) and the
    link rule it shares with the overview scraper (lines 33-34, 83-84). */
module Sources {
  import opened Wrappers
  import opened Text
  import opened Pages
  import opened Semesters

  /** Base path prepended to site-relative `resolveuid` links. */
  const BaseUrl := "https://www.wiwi.hu-berlin.de/de/studium/pa/"
  /** The faculty page listing the current grading overview. */
  const NotenUrl := "https://www.wiwi.hu-berlin.de/de/studium/pa/noten"

  /** A `resolveuid` link gets the base path in front; any other link is kept. */
  function NormalizeLink(link: string): (r: string)
    ensures |link| <= |r| && r[|r| - |link|..] == link
    ensures r == link <==> !Contains(link, "resolveuid")
  {
    if Contains(link, "resolveuid") then BaseUrl + link else link
  }

  /** The rewritten link ends with the original one, and whether it mentions
      "mailto" or "resolveuid" is decided by the original alone: the base path
      mentions neither and cannot start an occurrence that runs into the link. */
  lemma NormalizeLinkFacts(link: string)
    ensures var r := NormalizeLink(link);
      && |link| <= |r| && r[|r| - |link|..] == link
      && (r == link <==> !Contains(link, "resolveuid"))
      && (Contains(link, "resolveuid") ==> |r| == |BaseUrl| + |link| && r[..|BaseUrl|] == BaseUrl)
      && (Contains(r, "mailto") <==> Contains(link, "mailto"))
      && (Contains(r, "resolveuid") <==> Contains(link, "resolveuid"))
  {
    if Contains(link, "resolveuid") {
      Rebased(link);
    }
  }

  /** The base path in front of a link adds neither "mailto" nor
      "resolveuid". */
  lemma Rebased(link: string)
    ensures var r := BaseUrl + link;
      && |link| < |r| && r[|r| - |link|..] == link && r[..|BaseUrl|] == BaseUrl
      && (Contains(r, "mailto") <==> Contains(link, "mailto"))
      && (Contains(r, "resolveuid") <==> Contains(link, "resolveuid"))
  {
    RebasedMail(link);
    RebasedUid(link);
  }

  /** The base path has no letter "o", which both "mailto" and "resolveuid"
      use. */
  lemma BaseMissesO()
    ensures 'o' !in BaseUrl
  {
  }

  lemma RebasedMail(link: string)
    ensures Contains(BaseUrl + link, "mailto") <==> Contains(link, "mailto")
  {
    BaseMissesO();
    assert "mailto"[5] == 'o';
    RebasedMentions(link, "mailto", 5);
  }

  lemma RebasedUid(link: string)
    ensures Contains(BaseUrl + link, "resolveuid") <==> Contains(link, "resolveuid")
  {
    BaseMissesO();
    assert "resolveuid"[3] == 'o';
    RebasedMentions(link, "resolveuid", 3);
  }

  lemma RebasedMentions(link: string, p: string, j: nat)
    requires j < |p| && p[j] !in BaseUrl && '/' !in p
    ensures Contains(BaseUrl + link, p) <==> Contains(link, p)
  {
    PrefixNeutral(BaseUrl, link, p, j);
  }

  /** Prepending `base` neither creates nor hides an occurrence of `p` when
      `base` misses one of the characters of `p` and ends with another that
      `p` does not use. */
  lemma PrefixNeutral(base: string, link: string, p: string, j: nat)
    requires |base| > 0 && base[|base| - 1] !in p
    requires j < |p| && p[j] !in base
    ensures Contains(base + link, p) <==> Contains(link, p)
  {
    MissingCharExcludes(base, p, j);
    ContainsAfterPrefix(base, link, p);
  }

  // ---------------------------------------------------------------------------
  // An insertion-ordered dictionary from anchor text to link
  // ---------------------------------------------------------------------------

  /** A Python `dict` from string to string: entries in insertion order. */
  type Listing = seq<(string, string)>

  predicate DistinctKeys(d: Listing)
  {
    forall i, j :: 0 <= i < j < |d| ==> d[i].0 != d[j].0
  }

  /** `d.get(k)`. */
  function Lookup(d: Listing, k: string): Option<string>
  {
    if |d| == 0 then None
    else if d[0].0 == k then Some(d[0].1)
    else Lookup(d[1..], k)
  }

  /** `d.update({k: v})`: an existing key keeps its position and takes the new
      value; a new key is appended. Every other key keeps its value. */
  function Update(d: Listing, k: string, v: string): (r: Listing)
    requires DistinctKeys(d)
    ensures DistinctKeys(r)
    ensures Lookup(r, k) == Some(v)
    ensures forall k' :: k' != k ==> Lookup(r, k') == Lookup(d, k')
    ensures |r| == |d| + (if Lookup(d, k).Some? then 0 else 1)
    ensures forall i :: 0 <= i < |d| ==> r[i].0 == d[i].0
    ensures forall i :: |d| <= i < |r| ==> r[i].0 == k
  {
    if |d| == 0 then [(k, v)]
    else if d[0].0 == k then [(k, v)] + d[1..]
    else [d[0]] + Update(d[1..], k, v)
  }

  /** In a dictionary with distinct keys, every entry is what its key looks up. */
  lemma {:induction false} LookupEntry(d: Listing, i: nat)
    requires DistinctKeys(d) && i < |d|
    ensures Lookup(d, d[i].0) == Some(d[i].1)
  {
    if i > 0 {
      LookupEntry(d[1..], i - 1);
    }
  }

  // ---------------------------------------------------------------------------
  // list_sources
  // ---------------------------------------------------------------------------

  /** An anchor that survives the exclusions: its rewritten link does not
      mention "mailto" and its text does not mention "AGNES". */
  predicate Kept(a: Anchor)
  {
    !Contains(NormalizeLink(a.href), "mailto") && !Contains(a.text, "AGNES")
  }

  /** The loop over paragraphs: each kept first link is added under its text. */
  function AddLinks(d: Listing, ps: seq<Option<Anchor>>): (r: Listing)
    requires DistinctKeys(d)
    ensures DistinctKeys(r)
    ensures |d| <= |r| && forall i :: 0 <= i < |d| ==> r[i].0 == d[i].0
    decreases |ps|
  {
    if |ps| == 0 then d
    else
      var r := AddLinks(d, ps[..|ps| - 1]);
      match ps[|ps| - 1]
      case None => r
      case Some(a) => if Kept(a) then Update(r, a.text, NormalizeLink(a.href)) else r
  }

  /** Reference reading of the loop: the link of the LAST kept anchor whose
      text is `k`, if there is one. */
  function LastLink(ps: seq<Option<Anchor>>, k: string): Option<string>
    decreases |ps|
  {
    if |ps| == 0 then None
    else match ps[|ps| - 1]
      case Some(a) =>
        if Kept(a) && a.text == k then Some(NormalizeLink(a.href))
        else LastLink(ps[..|ps| - 1], k)
      case None => LastLink(ps[..|ps| - 1], k)
  }

  /** `list_sources(url)` on the fetched page: the heading-derived semester
      mapped to `url` first, then one entry per kept paragraph link. */
  function ListSources(url: string, page: Page): (r: Listing)
    ensures |r| > 0 && r[0].0 == HeadingLabel(page, ListingFallback)
    ensures DistinctKeys(r)
  {
    AddLinks([(HeadingLabel(page, ListingFallback), url)], page.paragraphs)
  }

  /** Adding links changes exactly the keys that some kept anchor names, and
      the last such anchor wins. */
  lemma {:induction false} AddLinksLookup(d: Listing, ps: seq<Option<Anchor>>, k: string)
    requires DistinctKeys(d)
    ensures Lookup(AddLinks(d, ps), k) == if LastLink(ps, k).Some? then LastLink(ps, k) else Lookup(d, k)
    decreases |ps|
  {
    if |ps| > 0 {
      AddLinksLookup(d, ps[..|ps| - 1], k);
    }
  }

  /** A link chosen by `LastLink` comes from a kept anchor with that text. */
  lemma {:induction false} LastLinkSource(ps: seq<Option<Anchor>>, k: string)
    requires LastLink(ps, k).Some?
    ensures exists j :: 0 <= j < |ps| && ps[j].Some? && Kept(ps[j].value)
              && ps[j].value.text == k && NormalizeLink(ps[j].value.href) == LastLink(ps, k).value
    decreases |ps|
  {
    var n := |ps| - 1;
    if ps[n].Some? && Kept(ps[n].value) && ps[n].value.text == k {
    } else {
      LastLinkSource(ps[..n], k);
      var j :| 0 <= j < n && ps[..n][j].Some? && Kept(ps[..n][j].value)
                && ps[..n][j].value.text == k && NormalizeLink(ps[..n][j].value.href) == LastLink(ps, k).value;
      assert ps[..n][j] == ps[j];
    }
  }

  /** The whole dictionary: a key maps to the link of the last kept anchor with
      that text; otherwise the heading-derived semester maps to `url`; nothing
      else is present. In particular the semester keeps `url` unless some kept
      anchor carries the same text. */
  lemma ListSourcesLookup(url: string, page: Page, k: string)
    ensures Lookup(ListSources(url, page), k) ==
      if LastLink(page.paragraphs, k).Some? then LastLink(page.paragraphs, k)
      else if k == HeadingLabel(page, ListingFallback) then Some(url)
      else None
  {
    AddLinksLookup([(HeadingLabel(page, ListingFallback), url)], page.paragraphs, k);
  }

  /** Every entry other than the initial semester one comes from a kept anchor:
      its link never mentions "mailto" and its text never mentions "AGNES". */
  lemma ListSourcesEntries(url: string, page: Page, i: nat)
    requires i < |ListSources(url, page)|
    ensures var r := ListSources(url, page);
      var ps := page.paragraphs;
      || r[i] == (HeadingLabel(page, ListingFallback), url)
      || (&& !Contains(r[i].1, "mailto") && !Contains(r[i].0, "AGNES")
          && exists j :: 0 <= j < |ps| && ps[j].Some? && Kept(ps[j].value)
                         && ps[j].value.text == r[i].0 && NormalizeLink(ps[j].value.href) == r[i].1)
  {
    var r := ListSources(url, page);
    LookupEntry(r, i);
    ListSourcesLookup(url, page, r[i].0);
    if LastLink(page.paragraphs, r[i].0).Some? {
      LastLinkSource(page.paragraphs, r[i].0);
    }
  }
}

=== FILE: text.dfy ===
/** The Python string operations the scraper relies on, as pure functions over
    `string` (`seq<char>`): substring test (`in`), `str.replace`, `str.split`
    with a one-character separator, `str.join`, `str.strip`, and
    `str.split(p)[0]` for a longer separator. */
module Text {

  /** Python's `str.isspace` for one character: exactly the characters
      `str.strip()` removes from either end. */
  predicate IsSpace(c: char)
  {
    || ('\t' <= c <= '\r')
    || ('\U{1C}' <= c <= '\U{1F}')
    || c == ' ' || c == '\U{85}' || c == '\U{A0}' || c == '\U{1680}'
    || ('\U{2000}' <= c <= '\U{200A}')
    || c == '\U{2028}' || c == '\U{2029}' || c == '\U{202F}'
    || c == '\U{205F}' || c == '\U{3000}'
  }

  predicate AllSpace(s: string)
  {
    forall i :: 0 <= i < |s| ==> IsSpace(s[i])
  }

  /** Neither starts nor ends with whitespace. */
  predicate Trimmed(s: string)
  {
    |s| == 0 || (!IsSpace(s[0]) && !IsSpace(s[|s| - 1]))
  }

  // ---------------------------------------------------------------------------
  // Substring test
  // ---------------------------------------------------------------------------

  /** Python's `p in s` for strings: `p` occurs in `s` as a contiguous piece. */
  predicate Contains(s: string, p: string)
    decreases |s|
  {
    p <= s || (|s| > 0 && Contains(s[1..], p))
  }

  /** The recursive definition agrees with "some suffix of `s` starts with `p`". */
  lemma {:induction false} ContainsIff(s: string, p: string)
    ensures Contains(s, p) <==> exists i :: 0 <= i <= |s| && p <= s[i..]
    decreases |s|
  {
    if |s| == 0 {
      assert s[0..] == s;
    } else {
      ContainsIff(s[1..], p);
      if Contains(s, p) {
        if p <= s {
          assert s[0..] == s;
        } else {
          var i :| 0 <= i <= |s[1..]| && p <= s[1..][i..];
          assert s[1..][i..] == s[i + 1..];
        }
      }
      if exists i :: 0 <= i <= |s| && p <= s[i..] {
        var i :| 0 <= i <= |s| && p <= s[i..];
        if i == 0 {
          assert s[0..] == s;
        } else {
          assert s[1..][i - 1..] == s[i..];
        }
      }
    }
  }

  lemma ContainsAt(s: string, p: string, i: nat)
    requires i <= |s| && p <= s[i..]
    ensures Contains(s, p)
  {
    ContainsIff(s, p);
  }

  /** A piece of a string contains only what the whole string contains. */
  lemma ContainsSlice(s: string, p: string, i: nat, j: nat)
    requires i <= j <= |s|
    ensures Contains(s[i..j], p) ==> Contains(s, p)
  {
    ContainsIff(s[i..j], p);
    if Contains(s[i..j], p) {
      var k :| 0 <= k <= |s[i..j]| && p <= s[i..j][k..];
      assert s[i..j][k..] <= s[i + k..];
      ContainsAt(s, p, i + k);
    }
  }

  /** A suffix of a string contains only what the whole string contains. */
  lemma ContainsSuffix(s: string, p: string, i: nat)
    requires i <= |s|
    ensures Contains(s[i..], p) ==> Contains(s, p)
  {
    assert s[i..] == s[i..|s|];
    ContainsSlice(s, p, i, |s|);
  }

  /** If one character of `p` never occurs in `s`, neither does `p`. */
  lemma MissingCharExcludes(s: string, p: string, j: nat)
    requires j < |p| && p[j] !in s
    ensures !Contains(s, p)
  {
    ContainsIff(s, p);
  }

  /** Prepending `a` cannot create an occurrence of `p` when `a` has none and
      its last character is not in `p` (so no occurrence can straddle the seam). */
  lemma ContainsAfterPrefix(a: string, b: string, p: string)
    requires |a| > 0 && a[|a| - 1] !in p && !Contains(a, p)
    ensures Contains(a + b, p) <==> Contains(b, p)
  {
    ContainsIff(a + b, p);
    ContainsIff(b, p);
    ContainsIff(a, p);
    if Contains(b, p) {
      var j :| 0 <= j <= |b| && p <= b[j..];
      assert (a + b)[|a| + j..] == b[j..];
    }
    forall i | |a| <= i <= |a + b|
      ensures (a + b)[i..] == b[i - |a|..]
    {
    }
    forall i | 0 <= i < |a|
      ensures !(p <= (a + b)[i..])
    {
      if i + |p| <= |a| {
        assert p <= (a + b)[i..] <==> p <= a[i..];
      } else {
        assert (a + b)[i..][|a| - 1 - i] == a[|a| - 1];
      }
    }
  }

  /** An occurrence in `x + t` lies in `t` or starts inside `x`. */
  lemma {:induction false} ContainsAppend(x: string, t: string, p: string)
    requires Contains(x + t, p)
    ensures Contains(t, p) || exists k :: 0 <= k < |x| && p <= x[k..] + t
    decreases |x|
  {
    if |x| > 0 {
      if p <= x + t {
        assert x[0..] == x;
      } else {
        assert (x + t)[1..] == x[1..] + t;
        ContainsAppend(x[1..], t, p);
        if !Contains(t, p) {
          var k :| 0 <= k < |x[1..]| && p <= x[1..][k..] + t;
          assert x[1..][k..] == x[k + 1..];
        }
      }
    } else {
      assert x + t == t;
    }
  }

  // ---------------------------------------------------------------------------
  // str.replace
  // ---------------------------------------------------------------------------

  /** Python's `s.replace(pat, rep)`: every non-overlapping occurrence of `pat`,
      scanning left to right, is replaced by `rep`. */
  function ReplaceAll(s: string, pat: string, rep: string): (r: string)
    requires |pat| > 0
    ensures |pat| == |rep| ==> |r| == |s|
    decreases |s|
  {
    if |s| == 0 then ""
    else if pat <= s then rep + ReplaceAll(s[|pat|..], pat, rep)
    else [s[0]] + ReplaceAll(s[1..], pat, rep)
  }

  /** Nothing to replace: the string comes back unchanged. */
  lemma {:induction false} ReplaceAbsent(s: string, pat: string, rep: string)
    requires |pat| > 0 && !Contains(s, pat)
    ensures ReplaceAll(s, pat, rep) == s
    decreases |s|
  {
    if |s| > 0 {
      ReplaceAbsent(s[1..], pat, rep);
    }
  }

  /** Replacing one character by another changes exactly the positions that
      hold it. */
  lemma {:induction false} ReplaceChar(s: string, c: char, d: char)
    ensures var r := ReplaceAll(s, [c], [d]);
      |r| == |s| && forall i :: 0 <= i < |s| ==> r[i] == (if s[i] == c then d else s[i])
    decreases |s|
  {
    if |s| > 0 {
      ReplaceChar(s[1..], c, d);
      var t := ReplaceAll(s[1..], [c], [d]);
      var head := if s[0] == c then d else s[0];
      assert ([c] <= s) == (s[0] == c);
      assert ReplaceAll(s, [c], [d]) == [head] + t;
      assert forall i :: 1 <= i < |s| ==> s[i] == s[1..][i - 1];
    }
  }

  /** The leftmost occurrence is replaced and scanning resumes right after it:
      together with `ReplaceAbsent` this pins `ReplaceAll` down completely. */
  lemma {:induction false} ReplaceLeftmost(a: string, b: string, pat: string, rep: string)
    requires |pat| > 0
    requires forall i :: 0 <= i < |a| ==> !(pat <= (a + pat + b)[i..])
    ensures ReplaceAll(a + pat + b, pat, rep) == a + rep + ReplaceAll(b, pat, rep)
    decreases |a|
  {
    var s := a + pat + b;
    if |a| == 0 {
      assert s == pat + b;
      assert s[|pat|..] == b;
    } else {
      var tail := a[1..];
      var rest := tail + pat + b;
      assert s[0..] == s;
      assert !(pat <= s);
      assert s[1..] == rest;
      assert ReplaceAll(s, pat, rep) == [a[0]] + ReplaceAll(rest, pat, rep);
      forall i | 0 <= i < |tail|
        ensures !(pat <= rest[i..])
      {
        assert rest[i..] == s[i + 1..];
      }
      ReplaceLeftmost(tail, b, pat, rep);
      assert [a[0]] + (tail + rep + ReplaceAll(b, pat, rep)) == a + rep + ReplaceAll(b, pat, rep);
    }
  }

  /** A prefix of the output that avoids the first character of `rep` was
      copied from the input unchanged. */
  lemma {:induction false} ReplacePrefixCopied(s: string, pat: string, rep: string, q: string)
    requires |pat| > 0 && |rep| > 0
    requires q <= ReplaceAll(s, pat, rep) && rep[0] !in q
    ensures q <= s
    decreases |s|
  {
    if |s| > 0 && |q| > 0 {
      assert q[0] == ReplaceAll(s, pat, rep)[0];
      if !(pat <= s) {
        assert q[1..] <= ReplaceAll(s[1..], pat, rep);
        assert forall c :: c in q[1..] ==> c in q;
        ReplacePrefixCopied(s[1..], pat, rep, q[1..]);
      }
    }
  }

  /** When `p` starts with a prefix of `a + t` that covers `a`, `a` and `p` are
      prefix-compatible. */
  lemma PrefixClash(a: string, t: string, p: string)
    requires p <= a + t
    ensures a <= p || p <= a
  {
    if |a| <= |p| {
      assert p[..|a|] == (a + t)[..|a|] == a;
    } else {
      assert a[..|p|] == (a + t)[..|p|] == p;
    }
  }

  /** After `ReplaceAll`, the string `p` does not occur, provided `p` is the
      replaced pattern itself or did not occur before, and no occurrence of
      `p` can overlap an inserted `rep`: `p` is prefix-incompatible with every
      suffix of `rep`, and the first character of `rep` is not in `p[1..]`. */
  lemma {:induction false} ReplaceExcludes(s: string, pat: string, rep: string, p: string)
    requires |pat| > 0 && |rep| > 0 && |p| > 0
    requires forall k :: 0 <= k < |rep| ==> !(rep[k..] <= p) && !(p <= rep[k..])
    requires rep[0] !in p[1..]
    requires p == pat || !Contains(s, p)
    ensures !Contains(ReplaceAll(s, pat, rep), p)
    decreases |s|
  {
    if |s| == 0 {
    } else if pat <= s {
      var rest := s[|pat|..];
      ContainsSuffix(s, p, |pat|);
      ReplaceExcludes(rest, pat, rep, p);
      var t := ReplaceAll(rest, pat, rep);
      if Contains(rep + t, p) {
        ContainsAppend(rep, t, p);
        var k :| 0 <= k < |rep| && p <= rep[k..] + t;
        PrefixClash(rep[k..], t, p);
      }
    } else {
      ContainsSuffix(s, p, 1);
      ReplaceExcludes(s[1..], pat, rep, p);
      var t := ReplaceAll(s[1..], pat, rep);
      assert ([s[0]] + t)[1..] == t;
      if p <= [s[0]] + t {
        assert p[1..] <= t;
        ReplacePrefixCopied(s[1..], pat, rep, p[1..]);
      }
    }
  }

  // ---------------------------------------------------------------------------
  // str.split with a one-character separator, and str.join
  // ---------------------------------------------------------------------------

  /** Position of the first `c` in `s`. */
  function IndexOf(s: string, c: char): (i: nat)
    requires c in s
    ensures i < |s| && s[i] == c && c !in s[..i]
  {
    if s[0] == c then 0
    else
      var j := IndexOf(s[1..], c);
      assert s[..j + 1] == [s[0]] + s[1..][..j];
      j + 1
  }

  /** Python's `s.split(sep)` for a one-character separator: the pieces
      between separators, empty pieces included. */
  function Split(s: string, sep: char): (parts: seq<string>)
    ensures |parts| == multiset(s)[sep] + 1
    ensures forall k :: 0 <= k < |parts| ==> sep !in parts[k]
    decreases |s|
  {
    if sep !in s then [s]
    else
      var i := IndexOf(s, sep);
      var rest := Split(s[i + 1..], sep);
      assert s == s[..i] + [sep] + s[i + 1..];
      assert multiset(s)[sep] == multiset(s[..i])[sep] + 1 + multiset(s[i + 1..])[sep];
      [s[..i]] + rest
  }

  /** Python's `sep.join(parts)`. */
  function Join(parts: seq<string>, sep: string): string
  {
    if |parts| == 0 then ""
    else if |parts| == 1 then parts[0]
    else parts[0] + sep + Join(parts[1..], sep)
  }

  /** Joining a first piece in front of at least one more adds it and one
      separator. */
  lemma JoinCons(x: string, parts: seq<string>, sep: string)
    requires |parts| > 0
    ensures Join([x] + parts, sep) == x + sep + Join(parts, sep)
  {
    assert ([x] + parts)[1..] == parts;
  }

  /** Joining the pieces of a split with the separator gives back the string. */
  lemma {:induction false} JoinSplit(s: string, sep: char)
    ensures Join(Split(s, sep), [sep]) == s
    decreases |s|
  {
    if sep in s {
      var i := IndexOf(s, sep);
      var rest := Split(s[i + 1..], sep);
      assert Split(s, sep) == [s[..i]] + rest;
      JoinSplit(s[i + 1..], sep);
      JoinCons(s[..i], rest, [sep]);
      assert s == s[..i] + [sep] + s[i + 1..];
    }
  }

  /** The first `c` is at `i` when `s[i] == c` and no `c` comes before. */
  lemma {:induction false} IndexOfUnique(s: string, c: char, i: nat)
    requires i < |s| && s[i] == c && c !in s[..i]
    ensures IndexOf(s, c) == i
    decreases i
  {
    if i > 0 {
      assert s[..i][0] == s[0];
      assert s[1..][..i - 1] == s[..i][1..];
      IndexOfUnique(s[1..], c, i - 1);
    }
  }

  /** Splitting a joined sequence of separator-free pieces gives back the pieces. */
  lemma {:induction false} SplitJoin(parts: seq<string>, sep: char)
    requires |parts| > 0
    requires forall k :: 0 <= k < |parts| ==> sep !in parts[k]
    ensures Split(Join(parts, [sep]), sep) == parts
    decreases |parts|
  {
    if |parts| > 1 {
      var rest := Join(parts[1..], [sep]);
      var s := parts[0] + [sep] + rest;
      assert Join(parts, [sep]) == s;
      assert s[|parts[0]|] == sep;
      assert s[..|parts[0]|] == parts[0];
      IndexOfUnique(s, sep, |parts[0]|);
      assert s[|parts[0]| + 1..] == rest;
      SplitJoin(parts[1..], sep);
      assert Split(s, sep) == [parts[0]] + parts[1..];
      assert [parts[0]] + parts[1..] == parts;
    }
  }

  /** A character outside every piece and the separator is outside the join. */
  lemma {:induction false} JoinAvoids(parts: seq<string>, sep: string, c: char)
    requires c !in sep
    requires forall k :: 0 <= k < |parts| ==> c !in parts[k]
    ensures c !in Join(parts, sep)
    decreases |parts|
  {
    if |parts| > 1 {
      JoinAvoids(parts[1..], sep, c);
    }
  }

  // ---------------------------------------------------------------------------
  // str.strip
  // ---------------------------------------------------------------------------

  /** Python's `s.lstrip()`. */
  function TrimLeft(s: string): (r: string)
    ensures |r| <= |s| && r == s[|s| - |r|..]
    ensures AllSpace(s[..|s| - |r|])
    ensures |r| > 0 ==> !IsSpace(r[0])
    decreases |s|
  {
    if |s| > 0 && IsSpace(s[0]) then
      var t := s[1..];
      var r := TrimLeft(t);
      assert t[|t| - |r|..] == s[|s| - |r|..];
      assert s[..|s| - |r|] == [s[0]] + t[..|t| - |r|];
      AllSpaceCons(s[0], t[..|t| - |r|]);
      r
    else s
  }

  lemma AllSpaceCons(c: char, t: string)
    requires IsSpace(c) && AllSpace(t)
    ensures AllSpace([c] + t)
  {
    assert forall i :: 1 <= i <= |t| ==> ([c] + t)[i] == t[i - 1];
  }

  /** Python's `s.rstrip()`. */
  function TrimRight(s: string): (r: string)
    ensures |r| <= |s| && r == s[..|r|]
    ensures AllSpace(s[|r|..])
    ensures |r| > 0 ==> !IsSpace(r[|r| - 1])
    decreases |s|
  {
    if |s| > 0 && IsSpace(s[|s| - 1]) then
      var r := TrimRight(s[..|s| - 1]);
      assert s[|r|..] == s[..|s| - 1][|r|..] + [s[|s| - 1]];
      r
    else s
  }

  /** Python's `s.strip()`: `s` without its leading and trailing whitespace.
      What is left neither starts nor ends with whitespace. */
  function Strip(s: string): (r: string)
    ensures |r| <= |s|
    ensures Trimmed(r)
  {
    var t := TrimLeft(s);
    var r := TrimRight(t);
    assert |r| > 0 ==> r[0] == t[0];
    r
  }

  /** Where the text `Strip` keeps begins in `s`. */
  function StripStart(s: string): (i: nat)
    ensures i + |Strip(s)| <= |s|
  {
    |s| - |TrimLeft(s)|
  }

  /** What `Strip` keeps is one slice of `s`. */
  lemma StripSlice(s: string)
    ensures Strip(s) == s[StripStart(s)..StripStart(s) + |Strip(s)|]
  {
    PrefixOfSuffix(s, TrimLeft(s), Strip(s));
  }

  /** Everything `Strip` removes around the kept slice is whitespace. */
  lemma StripRemovesSpace(s: string)
    ensures AllSpace(s[..StripStart(s)]) && AllSpace(s[StripStart(s) + |Strip(s)|..])
  {
    StripLeadSpace(s);
    StripTrailSpace(s);
  }

  lemma StripLeadSpace(s: string)
    ensures AllSpace(s[..StripStart(s)])
  {
    var t := TrimLeft(s);
    assert s[..StripStart(s)] == s[..|s| - |t|];
  }

  lemma StripTrailSpace(s: string)
    ensures AllSpace(s[StripStart(s) + |Strip(s)|..])
  {
    var t := TrimLeft(s);
    assert Strip(s) == TrimRight(t);
    SuffixSpace(s, t, Strip(s));
  }

  /** Whitespace after a prefix `r` of a suffix `t` of `s` is whitespace at
      the end of `s`. */
  lemma SuffixSpace(s: string, t: string, r: string)
    requires |t| <= |s| && t == s[|s| - |t|..] && |r| <= |t| && r == t[..|r|]
    requires AllSpace(t[|r|..])
    ensures AllSpace(s[|s| - |t| + |r|..])
  {
    PrefixOfSuffix(s, t, r);
  }

  /** A prefix `r` of a suffix `t` of `s` is a slice of `s`. */
  lemma PrefixOfSuffix(s: string, t: string, r: string)
    requires |t| <= |s| && t == s[|s| - |t|..] && |r| <= |t| && r == t[..|r|]
    ensures r == s[|s| - |t|..|s| - |t| + |r|] && s[|s| - |t| + |r|..] == t[|r|..]
  {
  }

  /** Whitespace around a core that neither starts nor ends with whitespace
      is exactly what `Strip` removes. */
  lemma StripFramed(lead: string, core: string, trail: string)
    requires AllSpace(lead) && AllSpace(trail)
    requires |core| > 0 && !IsSpace(core[0]) && !IsSpace(core[|core| - 1])
    ensures Strip(lead + core + trail) == core
  {
    assert lead + core + trail == lead + (core + trail);
    TrimLeftFramed(lead, core + trail);
    TrimRightFramed(core, trail);
  }

  lemma {:induction false} TrimLeftFramed(lead: string, rest: string)
    requires AllSpace(lead) && |rest| > 0 && !IsSpace(rest[0])
    ensures TrimLeft(lead + rest) == rest
    decreases |lead|
  {
    if |lead| == 0 {
      assert lead + rest == rest;
    } else {
      assert (lead + rest)[1..] == lead[1..] + rest;
      TrimLeftFramed(lead[1..], rest);
    }
  }

  lemma {:induction false} TrimRightFramed(rest: string, trail: string)
    requires AllSpace(trail) && |rest| > 0 && !IsSpace(rest[|rest| - 1])
    ensures TrimRight(rest + trail) == rest
    decreases |trail|
  {
    if |trail| == 0 {
      assert rest + trail == rest;
    } else {
      var t := rest + trail;
      assert t[..|t| - 1] == rest + trail[..|trail| - 1];
      TrimRightFramed(rest, trail[..|trail| - 1]);
    }
  }

  /** Stripping twice is stripping once. */
  lemma StripIdempotent(s: string)
    ensures Strip(Strip(s)) == Strip(s)
  {
    var r := Strip(s);
    if |r| > 0 {
      StripFramed("", r, "");
      assert "" + r + "" == r;
    }
  }

  /** A stripped string is a slice of the original, so it contains nothing
      the original did not. */
  lemma StripContains(s: string, p: string)
    ensures Contains(Strip(s), p) ==> Contains(s, p)
  {
    if Contains(Strip(s), p) {
      StripSlice(s);
      ContainsIn(s, Strip(s), p, StripStart(s));
    }
  }

  /** What a slice of `s` contains, `s` contains. */
  lemma ContainsIn(s: string, r: string, p: string, i: nat)
    requires i + |r| <= |s| && r == s[i..i + |r|] && Contains(r, p)
    ensures Contains(s, p)
  {
    ContainsSlice(s, p, i, i + |r|);
  }

  // ---------------------------------------------------------------------------
  // str.split(p)[0] for a longer separator
  // ---------------------------------------------------------------------------

  /** Python's `s.split(p)[0]`: the text before the first occurrence of `p`,
      or all of `s` when `p` does not occur. */
  function Before(s: string, p: string): (r: string)
    requires |p| > 0
    ensures r <= s
    ensures forall i :: 0 <= i < |r| ==> !(p <= s[i..])
    ensures |r| == |s| || p <= s[|r|..]
    decreases |s|
  {
    if |s| == 0 || p <= s then ""
    else
      var r := Before(s[1..], p);
      assert forall i :: 1 <= i <= |s| ==> s[1..][i - 1..] == s[i..];
      [s[0]] + r
  }

  /** When the first occurrence of `p` starts at `j`, `Before` keeps exactly
      the text in front of it. */
  lemma BeforeFirst(s: string, p: string, j: nat)
    requires |p| > 0 && j <= |s| && p <= s[j..]
    requires forall i :: 0 <= i < j ==> !(p <= s[i..])
    ensures Before(s, p) == s[..j]
  {
  }

  /** The text before the first occurrence of `p` does not contain `p`. */
  lemma BeforeExcludes(s: string, p: string)
    requires |p| > 0
    ensures !Contains(Before(s, p), p)
  {
    var r := Before(s, p);
    ContainsIff(r, p);
  }

  /** Concatenation is associative. */
  lemma ConcatAssoc<T>(x: seq<T>, y: seq<T>, z: seq<T>)
    ensures x + (y + z) == (x + y) + z
  {
  }
}

=== FILE: wrappers.dfy ===
/** Optional values and results with an error channel, used for the places where
    the scraper returns `None` or raises instead of returning a value. */
module Wrappers {

  /** `None` stands for Python's `None`. */
  datatype Option<+T> = None | Some(value: T)

  /** A value, or the error that the original code would raise instead. */
  datatype Result<+R, +E> = Success(value: R) | Failure(error: E)
}
